=== FILE: README.md ===
# python-lexer in Dafny

A model of the core of the Python syntax highlighter `PythonLexer`, with proofs
about it. The highlighter keeps a registry of named regular-expression patterns.
A pattern may mention other registered patterns by reference tokens
`<name>`. `Lexer::insert` expands those references textually. It records, for each
reference, an *anchor*: the number of `(` up to and including the substitution
point that the source counts as unescaped. That is the group the referenced
pattern occupies only when its regex starts with an unescaped `(` and every `(`
counted before the site opens a capturing group. A `(` inside a character class
such as `[(]`, the `(` of `(?:` or `(?=`, and a `(` right after a backslash at
index 0 are counted too, and each makes the index too high. A regex that does
not start with `(` leaves the index on an enclosing group, or on no group at
all. `Lexem::match` later uses those anchors to label
each regex match with the name of the sub-pattern that produced it. `colorize`
then prints the text with every labelled span on a background chosen per label.

Modules, following the parts of the source:

- `Wrappers` — `Option`.
- `Records` — the records of `lexer.hpp`:
  - `Match`: a label, a start and a length
  - `Anchor`: a referenced name and the count of `(` that serves as its group index
  - `Lexem`: spec, expanded regex and anchors
  - `Lexer`: a registry keyed by name
- `Reference` — the reference recogniser `<[a-zA-Z0-9_]+>`. It finds the leftmost
  token, and `TokensFrom` enumerates the tokens of a string.
- `Groups` — the anchor count of `Lexer::insert`: unescaped `(` at indices
  `0..pos` inclusive. A `(` is escaped after an odd run of backslashes, and the
  scan never looks at index 0. `CountCurls` is the nested loop itself.
- `Composition` — one loop turn (`Step`), the loop (`Expand`), `Insert` and
  `Lookup` (`operator[]`). The source's `while (true)` is bounded by a fuel
  argument.
- `Stability` — why the anchors stay valid:
  - When no substitution makes a token appear left of the end of the text it
    inserted, everything before that end is never rewritten again.
  - So every recorded index is still the count in the final regex, wherever the
    referenced regex is non-empty.
  - Registries whose regexes are token-free and start and end outside the token
    alphabet meet that condition. Their regexes are never empty, so every
    recorded index is exact. For them, `insert` with fuel equal to the spec's
    length always returns, and it substitutes exactly the spec's tokens, in order.
- `Labelling` — the labelling loop of `Lexem::match`, over abstract raw matches.
  Each raw match has a position, a length and the set of participating groups.
- `Highlight` — `colorize`, producing `Plain`/`Styled` segments instead of ANSI
  bytes. Backgrounds are handed out lazily, cycling through 41..46. `Rendering`
  states the same output without the loop, styling each match by the rank of
  its label in order of first sight.
- `Palette` — `good_colors` and `assign` from `PythonLexer.cpp`. `Assignment`
  states the map `assign` builds without the loop.
- `Grammar` — six `insert` calls of the Python grammar table (lexer.cpp lines
  141-143 and 254-256), run through the model with concrete results, plus small
  examples of the counting rules.

## Model

| member | source | states |
|---|---|---|
| Reference.TokenLenAtSpec | PythonLexer/lexer.cpp:39 | a token of length `n` starts at `p` iff the recogniser returns `n` there: `<`, the maximal run of at least one `[a-zA-Z0-9_]`, then `>`; at most one length fits |
| Reference.FindRefFromSpec | PythonLexer/lexer.cpp:39-45 | the search from `i` returns a real token and no token starts between `i` and it; it fails only when no token starts at or after `i` |
| Reference.FindRef | PythonLexer/lexer.cpp:43 | `regex_search` fails iff the string holds no token; otherwise it yields the leftmost token, angle brackets included |
| Reference.TokensFromShift | PythonLexer/lexer.cpp:43 | the tokens found inside the `c` part of `a + c` are the tokens of `c`: text to the left never changes what is found to the right |
| Reference.TokensFromComplete | PythonLexer/lexer.cpp:39-45 | every token starting at or after `i` is among the tokens the repeated leftmost search enumerates |
| Reference.TokensFromSound | PythonLexer/lexer.cpp:39-45 | everything the enumeration yields is a token of the string starting at or after `i` |
| Groups.BackslashRun | PythonLexer/lexer.cpp:63-69 | the leftward scan counts a run of backslashes that ends just left of `i` and never reaches index 0 |
| Groups.CountCurls | PythonLexer/lexer.cpp:57-76 | the nested loops compute `Curls`: the number of `(` at indices `0..pos` inclusive not preceded by an odd backslash run; at most `pos + 1` |
| Groups.CurlsAtSite | PythonLexer/lexer.cpp:55-76 | after a replacement at `p`, the count is the unescaped `(` strictly before `p` plus one iff the inserted text starts with an unescaped `(` (or, for an empty target, the next character does) |
| Composition.StepSpec | PythonLexer/lexer.cpp:43-78 | one turn stops iff no token is left; fails on an unregistered leftmost token; otherwise replaces exactly the leftmost token by the target's regex, keeps both sides, and records an anchor named by the token with the count above |
| Composition.Expand | PythonLexer/lexer.cpp:42-81 | on success the regex holds no token and the anchors extend the ones so far with registered names; a failure names an unregistered token; a token-free text is returned as is |
| Composition.Insert | PythonLexer/lexer.cpp:35-87 | false leaves the registry unchanged; an unregistered leftmost token gives false; success stores `name` with its spec and a token-free regex, keeps every other entry, and adds no other key; a token-free spec is stored verbatim with no anchors; token-free registries stay token-free |
| Composition.Lookup | PythonLexer/lexer.cpp:109-111 | `operator[]` never fails: a present name is returned with the registry unchanged; an absent one is default-inserted as an empty pattern |
| Stability.PrefixKept | PythonLexer/lexer.cpp:42-55 | if no token starts before `e` and no substitution creates a new token, the final regex begins with the same `e` characters |
| Stability.AnchorsValid | PythonLexer/lexer.cpp:57-78 | in a run free of new tokens there is one anchor per substitution; each site in the final regex still holds the referenced regex; when that regex is non-empty, the recorded index equals the final regex's count at that site |
| Stability.DelimitedAnchorsExact | PythonLexer/lexer.cpp:52-78 | over a registry of bracketed, token-free regexes every recorded index equals the final regex's count at its site, with no exception |
| Stability.StepKeepsTokensRight | PythonLexer/lexer.cpp:52-55 | over bracketed, token-free regexes a substitution leaves no token starting before the end of the inserted text |
| Stability.DelimitedNoNewToken | PythonLexer/lexer.cpp:42-81 | over such a registry no substitution of any run creates a new token |
| Stability.InsertFinishes | PythonLexer/lexer.cpp:42-81 | over such a registry `insert` with fuel equal to the spec's length always returns, and its run creates no new token |
| Stability.InsertFollowsTokens | PythonLexer/lexer.cpp:35-86 | over such a registry `insert` returns true iff every token of the spec is registered; then the anchor names are the spec's tokens in left-to-right order, one per occurrence; false leaves the registry unchanged |
| Stability.ExpandedAllRegistered | PythonLexer/lexer.cpp:42-55 | for every registry: if the substitution loop from a text ends with a regex, every reference token of that text from any index on names a registered pattern, because the loop stops with failure at the first unregistered one it meets and no substitution consumes a token to the right of its site |
| Stability.InsertTrueAllRegistered | PythonLexer/lexer.cpp:35-87 | for every registry and any fuel: when `insert` returns true, every reference token of the spec names a registered pattern |
| Stability.InsertKeepsDelimited | PythonLexer/lexer.cpp:83-84 | registering a bracketed spec keeps the registry bracketed and token-free |
| Stability.LookupAbsentUnbracketed | PythonLexer/lexer.cpp:109-111 | looking up an absent name leaves a registry that is not bracketed, because it stores an empty regex; looking up a present name changes nothing |
| Labelling.FirstHit | PythonLexer/lexer.cpp:97-103 | the first anchor, in stored order, whose group took part; none iff no anchor's group took part |
| Labelling.ScanAnchors | PythonLexer/lexer.cpp:97-103 | the inner loop skips anchors whose group did not participate and stops at the first that did, which is `FirstHit` |
| Labelling.MatchAll | PythonLexer/lexer.cpp:89-107 | at most one output per raw match, in raw order, copying its span under the first participating anchor's name; a raw match is used iff some anchor's group took part; no anchors gives no output |
| Labelling.LabelsConcat | PythonLexer/lexer.cpp:95-104 | labelling two runs of raw matches one after the other gives the two labellings concatenated |
| Labelling.TracesSorted | PythonLexer/lexer.cpp:95-103 | labelled output of ascending, non-overlapping, in-bounds raw matches is ascending, non-overlapping and in bounds |
| Highlight.Colorize | PythonLexer/lexer.cpp:5-28 | the loop, with its label map grown lazily and its offset wrapping round 41..46, prints exactly `Rendering`, where every match is styled by the rank of its label |
| Highlight.ColorizeStrip | PythonLexer/lexer.cpp:20-27 | removing the styling from the output gives back `text` |
| Highlight.ColorizeGaps | PythonLexer/lexer.cpp:20-22 | before each match, a plain segment holding the gap from the previous match's end (or from 0) to the match's start |
| Highlight.ColorizeSpans | PythonLexer/lexer.cpp:12-21 | each match's text is styled with foreground 39 and its label's background |
| Highlight.ColorizeTail | PythonLexer/lexer.cpp:24-26 | after the pairs, the remaining text as one plain segment if any is left, and nothing otherwise |
| Highlight.ColorizeStyles | PythonLexer/lexer.cpp:7-21 | every styled segment has foreground 39 and a background in 41..46 |
| Highlight.PickBackground | PythonLexer/lexer.cpp:13-19 | one turn of the label map yields the map and offset after one more match, and the current label then holds its rank-based background (`Background`) |
| Highlight.LabelMapMeaning | PythonLexer/lexer.cpp:6-19 | after `i` matches, the map holds exactly the labels seen so far, each with its background, and the offset is the number of labels seen modulo 6 |
| Highlight.Background | PythonLexer/lexer.cpp:7-8 | every background lies in 41..46 |
| Highlight.BackgroundByRank | PythonLexer/lexer.cpp:13-19 | a label's background is `41 + r mod 6`, where `r` is the label's rank among the different labels in order of first sight |
| Palette.GoodColors | PythonLexer/PythonLexer.cpp:10-29 | 14 styles, all foreground 30 and mode 3: backgrounds 41..47, then 101..107 |
| Palette.GoodColorsDistinct | PythonLexer/PythonLexer.cpp:10-29 | the backgrounds strictly increase, so no two styles coincide |
| Palette.Assign | PythonLexer/PythonLexer.cpp:31-37 | the loop builds `Assignment`: each label mapped to the color at the index of its first occurrence, modulo the number of colors |
| Palette.AssignmentMeaning | PythonLexer/PythonLexer.cpp:31-37 | the keys are exactly the labels; the label first seen at index `i` gets the color at `i` modulo the number of colors, so later duplicates do not overwrite; every value is an element of `colors` |
| Grammar.InsertPlain | PythonLexer/lexer.cpp:36-45 | a spec with no `<` is stored verbatim with no anchors |
| Grammar.DigitsRegistered | PythonLexer/lexer.cpp:141-142 | the two digit classes are stored as given |
| Grammar.DecIntegerAnchors | PythonLexer/lexer.cpp:141-143 | `<dec_integer>` expands to `(([1-9])(_?([0-9]))*\|0+(_?0)*)` with anchors `("<non_zero_digit>", 2)` and `("<digit>", 4)` |
| Grammar.IdPartsRegistered | PythonLexer/lexer.cpp:254-255 | the two identifier classes are stored as given |
| Grammar.IdentifierAnchors | PythonLexer/lexer.cpp:254-256 | `<identifier>` expands both references, and both anchors get index 1, because neither inserted class starts with `(` |
| Grammar.EscapeAtStartIgnored | PythonLexer/lexer.cpp:64 | a backslash at index 0 does not escape the `(` after it; one at index 1 does, and a pair cancels |
| Grammar.ParenInClassCounted | PythonLexer/lexer.cpp:57-76 | a `(` inside a character class counts as a group |

## Left out

- `std::regex` compilation and search (lexer.cpp lines 83 and 90-91) are a foreign regex engine. `Lexem::match` takes the engine's matches as abstract `RawMatch` values. The compiled regex is not stored in `Lexem`. The exception thrown on a malformed expanded regex, and the zero-length advance rule of `sregex_iterator`, are not modelled.
- `format` (escape.hpp line 71) has no visible body. The ANSI colour tables of escape.hpp (lines 4-69) are plain enum constants, and the model uses the ones it needs: the default foreground 39 of line 30 is `Highlight.DefaultFg`. A styled span is the segment `Styled(text, fg, bg)`, and `Format` is a plain triple whose field order follows the calls in `good_colors`.
- `main` in `PythonLexer.cpp` is I/O on stdin and stdout. The header declares neither the three-argument `colorize` nor `Lexem::display` that it calls, and the registry `lexems` it reads is private.
- The rest of the Python grammar table (lexer.cpp lines 113-257) is configuration data. Only the integer and identifier entries at lines 141-143 and 254-256 are modelled.
- The iteration order of `unordered_map` does not affect any modelled result and is not modelled.
- Integer widths are not modelled. `long long`, `int` and `size_t` become unbounded naturals. Lists of labels with `INT_MAX` or more entries are not modelled: the `int` index of `assign` (PythonLexer.cpp line 33) would overflow. Nor are patterns that long: the same holds for `int pos`, `int curls` and the loop indices of `insert` (lexer.cpp lines 41-76).
- Strings are sequences of characters, while the source works on byte strings: `Match` offsets and lengths are byte offsets there. Multi-byte characters are not modelled.
- The `mode` of a styled span is not modelled. `colorize` calls `format` with its default `mode`, bold (escape.hpp line 71, lexer.cpp line 21), and `Styled(text, fg, bg)` carries no mode.
- `Composition.Lookup`: returns a copy of the entry, while `operator[]` returns a mutable reference into the registry (lexer.hpp line 32). Writes through that reference are not modelled. Such a write could store a regex holding tokens, or one that is not bracketed, and the facts of `Stability` proved for such registries would then not apply. The default-insert of an absent name already breaks them: it stores an empty regex, which is not bracketed (`Stability.LookupAbsentUnbracketed`).
- `Composition.Insert`: the `while (true)` loop is bounded by `fuel`, and `Diverged` reports a run that needed more substitutions. `Stability.InsertFinishes` shows that fuel equal to the spec's length suffices whenever the registry holds only bracketed, token-free regexes, as every entry of the grammar table does.
- `Highlight.Colorize`: requires matches that are ascending, non-overlapping and inside the text. For other inputs the source's `m.pos - cursor` and the unsigned comparison on line 24 wrap around, and `substr` can throw; those paths are not modelled.
- `Palette.Assign`: requires a non-empty `colors` whenever `labels` is non-empty, because the source divides by `colors.size()`.

=== FILE: composition.dfy ===
/** Registration of a pattern, `Lexer::insert` (PythonLexer/lexer.cpp, lines 35-87),
    and the registry lookup `Lexer::operator[]` (lines 109-111).

    The source loops with `while (true)`, searching the rewritten string from
    index 0 every time; a substitution can create a new token across its
    boundaries, so termination is not evident. The model bounds the number of
    substitutions by `fuel` and reports `OutOfFuel` when it runs out. */
module Composition {

  import opened Wrappers
  import opened Records
  import opened Reference
  import opened Groups

  /** The outcome of one iteration of the loop. */
  datatype StepResult =
    | NoRef                                  // the search failed: the loop exits
    | Missing(name: string)                  // the leftmost token is not registered
    | Rewrote(next: string, at: nat, width: nat, anchor: Anchor)
                                             // token at `at` replaced by `width` characters

  /** One iteration: find the leftmost token, look it up, replace it verbatim by the
      target's stored regex and record the anchor counted on the rewritten string.
      What it computes is stated by `StepSpec`. */
  function Step(lexems: map<string, Lexem>, s: string): StepResult
  {
    match FindRef(s)
    case None => NoRef
    case Some(ref) =>
      var name := s[ref.pos..ref.pos + ref.len];
      if name !in lexems then Missing(name)
      else
        var target := lexems[name].regex;
        var next := s[..ref.pos] + target + s[ref.pos + ref.len..];
        Rewrote(next, ref.pos, |target|, Anchor(name, Curls(next, ref.pos)))
  }

  /** One iteration of the loop: it stops exactly when no token is left; it fails
      on an unregistered leftmost token; otherwise it replaces exactly the leftmost
      token, whose text (brackets included) becomes the anchor's name, by the
      target's stored regex and leaves everything else in place, and the anchor
      index counts the unescaped `(` strictly before the site plus one iff the
      character now at the site is an unescaped `(`. */
  lemma StepSpec(lexems: map<string, Lexem>, s: string)
    ensures var r := Step(lexems, s);
      && (r.NoRef? <==> !ContainsToken(s))
      && (r.Missing? ==>
            && r.name !in lexems
            && IsToken(r.name)
            && FindRef(s).Some?
            && s[FindRef(s).value.pos..FindRef(s).value.pos + FindRef(s).value.len] == r.name)
      && (r.Rewrote? ==>
            var name := r.anchor.name;
            && FindRef(s) == Some(Ref(r.at, |name|))
            && IsToken(name)
            && name in lexems
            && s[r.at..r.at + |name|] == name
            && r.width == |lexems[name].regex|
            && r.next == s[..r.at] + lexems[name].regex + s[r.at + |name|..]
            && r.anchor.pos == CountOpen(s, r.at) +
                 (if |r.next| > r.at && r.next[r.at] == '(' && !Escaped(s, r.at) then 1 else 0))
  {
    StepShape(lexems, s);
    if Step(lexems, s).Missing? {
      StepMissing(lexems, s);
    } else if Step(lexems, s).Rewrote? {
      StepRewrote(lexems, s);
    }
  }

  /** The `Missing` case of `StepSpec`. */
  lemma StepMissing(lexems: map<string, Lexem>, s: string)
    requires Step(lexems, s).Missing?
    ensures var r := Step(lexems, s);
      && FindRef(s).Some?
      && s[FindRef(s).value.pos..FindRef(s).value.pos + FindRef(s).value.len] == r.name
  {
  }

  /** The `Rewrote` case of `StepSpec`. */
  lemma StepRewrote(lexems: map<string, Lexem>, s: string)
    requires Step(lexems, s).Rewrote?
    ensures var r := Step(lexems, s);
      var name := r.anchor.name;
      && FindRef(s) == Some(Ref(r.at, |name|))
      && IsToken(name)
      && name in lexems
      && s[r.at..r.at + |name|] == name
      && r.width == |lexems[name].regex|
      && r.next == s[..r.at] + lexems[name].regex + s[r.at + |name|..]
      && r.anchor.pos == CountOpen(s, r.at) +
           (if |r.next| > r.at && r.next[r.at] == '(' && !Escaped(s, r.at) then 1 else 0)
  {
    var ref := FindRef(s).value;
    var name := s[ref.pos..ref.pos + ref.len];
    CurlsAfterReplace(s, ref.pos, ref.len, lexems[name].regex);
  }

  /** The part of `StepSpec` that `Expand` relies on. */
  lemma StepShape(lexems: map<string, Lexem>, s: string)
    ensures var r := Step(lexems, s);
      && (r.NoRef? <==> !ContainsToken(s))
      && (r.Missing? ==> r.name !in lexems && IsToken(r.name))
      && (r.Rewrote? ==> r.anchor.name in lexems && IsToken(r.anchor.name))
  {
  }

  /** The anchor index of a replacement, in terms of the string before it. */
  lemma CurlsAfterReplace(s: string, p: nat, n: nat, target: string)
    requires p + n <= |s|
    ensures var next := s[..p] + target + s[p + n..];
      Curls(next, p) == CountOpen(s, p) +
        (if |next| > p && next[p] == '(' && !Escaped(s, p) then 1 else 0)
  {
    var prefix := s[..p];
    CurlsAtSite(prefix, target, s[p + n..]);
    assert prefix[..p] == s[..p];
    CountOpenPrefix(prefix, s, p);
    BackslashRunPrefix(prefix, s, p);
  }

  /** The result of running the loop to its end. */
  datatype Expansion =
    | Expanded(regex: string, anchors: seq<Anchor>)
    | Undefined(name: string)
    | OutOfFuel

  /** The loop of lines 42-81, from the working string `s` with the anchors `acc`
      collected so far, allowed at most `fuel` further substitutions. */
  function Expand(lexems: map<string, Lexem>, s: string, acc: seq<Anchor>, fuel: nat): (r: Expansion)
    ensures r.Expanded? ==> !ContainsToken(r.regex)
    ensures r.Expanded? ==> |acc| <= |r.anchors| && r.anchors[..|acc|] == acc
    ensures r.Expanded? ==> forall k :: |acc| <= k < |r.anchors| ==>
      r.anchors[k].name in lexems && IsToken(r.anchors[k].name)
    ensures r.Undefined? ==> r.name !in lexems && IsToken(r.name)
    ensures !ContainsToken(s) ==> r == Expanded(s, acc)
    decreases fuel
  {
    StepShape(lexems, s);
    match Step(lexems, s)
    case NoRef => Expanded(s, acc)
    case Missing(name) => Undefined(name)
    case Rewrote(next, _, _, anchor) =>
      if fuel == 0 then OutOfFuel
      else
        var r := Expand(lexems, next, acc + [anchor], fuel - 1);
        assert r.Expanded? ==> r.anchors[..|acc|] == (acc + [anchor])[..|acc|] == acc;
        r
  }

  /** The value returned by `insert` together with the registry it leaves behind,
      or `Diverged` when the substitutions did not finish within the fuel. */
  datatype Insertion = Returned(ok: bool, lexer: Lexer) | Diverged

  /** Every stored regex is free of reference tokens. */
  ghost predicate Wf(lx: Lexer)
  {
    forall name :: name in lx.lexems ==> !ContainsToken(lx.lexems[name].regex)
  }

  /** `Lexer::insert(name, spec)`. */
  function Insert(lx: Lexer, name: string, spec: string, fuel: nat): (r: Insertion)
    ensures r.Returned? && !r.ok ==> r.lexer == lx
    ensures r.Returned? && r.ok ==>
      && r.lexer.lexems.Keys == lx.lexems.Keys + {name}
      && r.lexer.lexems[name].spec == spec
      && !ContainsToken(r.lexer.lexems[name].regex)
      && (forall other :: other in lx.lexems && other != name ==> r.lexer.lexems[other] == lx.lexems[other])
    ensures FindRef(spec).Some? && spec[FindRef(spec).value.pos..FindRef(spec).value.pos + FindRef(spec).value.len] !in lx.lexems ==>
      r == Returned(false, lx)
    ensures !ContainsToken(spec) ==> r == Returned(true, Lexer(lx.lexems[name := Lexem(spec, spec, [])]))
    ensures Wf(lx) && r.Returned? ==> Wf(r.lexer)
  {
    StepSpec(lx.lexems, spec);
    match Expand(lx.lexems, spec, [], fuel)
    case Expanded(regex, anchors) => Returned(true, Lexer(lx.lexems[name := Lexem(spec, regex, anchors)]))
    case Undefined(_) => Returned(false, lx)
    case OutOfFuel => Diverged
  }

  /** `Lexer::operator[]`: never fails; an absent name is default-inserted. */
  function Lookup(lx: Lexer, name: string): (r: (Lexem, Lexer))
    ensures name in r.1.lexems && r.0 == r.1.lexems[name]
    ensures name in lx.lexems ==> r == (lx.lexems[name], lx)
    ensures name !in lx.lexems ==> r.0 == EmptyLexem && r.1.lexems == lx.lexems[name := EmptyLexem]
    ensures r.1.lexems.Keys == lx.lexems.Keys + {name}
    ensures Wf(lx) ==> Wf(r.1)
  {
    if name in lx.lexems then (lx.lexems[name], lx)
    else
      var lexems := lx.lexems[name := EmptyLexem];
      assert !ContainsToken(EmptyLexem.regex);
      (EmptyLexem, Lexer(lexems))
  }
}

=== FILE: grammar.dfy ===
/** Entries of the Python grammar table in PythonLexer/lexer.cpp registered
    through the model of `Lexer::insert`, and the counting rules they exercise. */
module Grammar {

  import opened Wrappers
  import opened Records
  import opened Reference
  import opened Groups
  import opened Composition
  import Stability

  /** The specs of lines 141-143. */
  const NonZeroDigit: string := "([1-9])"
  const Digit: string := "([0-9])"
  const DecInteger: string := "(<non_zero_digit>(_?<digit>)*|0+(_?0)*)"

  /** The specs of lines 254-256 (`\\b` in the C++ source is one backslash). */
  const IdStart: string := "[a-zA-Z_]"
  const IdContinue: string := "[0-9a-zA-z_]"
  const Identifier: string := "(\\b<id_start><id_continue>*\\b)"

  /** A text without `<` holds no token. */
  lemma NoAngleNoToken(s: string)
    requires '<' !in s
    ensures !ContainsToken(s)
  {
  }

  /** A token `w` with no `<` to its left is the leftmost token. */
  lemma FindRefAfter(a: string, w: string, c: string)
    requires '<' !in a && IsToken(w)
    ensures FindRef(a + w + c) == Some(Ref(|a|, |w|))
  {
    var s := a + w + c;
    assert s[|a|..|a| + |w|] == w;
    assert TokenAt(s, |a|, |w|);
    var r := FindRef(s).value;
    assert s[r.pos] == s[r.pos..r.pos + r.len][0];
    TokenLenUnique(s, |a|, WordRun(s, |a| + 1));
  }

  /** `StepAt` for a target regex that opens a group at an unescaped site, with
      every piece given by name. */
  lemma StepAtGroup(lexems: map<string, Lexem>, a: string, w: string, c: string, t: string, k: nat, s: string, s': string)
    requires '<' !in a && IsToken(w) && w in lexems && lexems[w].regex == t
    requires |t| > 0 && t[0] == '(' && !Escaped(a, |a|) && k == CountOpen(a, |a|) + 1
    requires s == a + w + c && s' == a + t + c
    ensures Step(lexems, s) == Rewrote(s', |a|, |t|, Anchor(w, k))
  {
    StepAt(lexems, a, w, c);
  }

  /** One turn of the loop on `a + w + c` where `w` is the leftmost token and
      names a registered pattern with a non-empty regex. */
  lemma StepAt(lexems: map<string, Lexem>, a: string, w: string, c: string)
    requires '<' !in a && IsToken(w) && w in lexems && |lexems[w].regex| > 0
    ensures var t := lexems[w].regex;
      Step(lexems, a + w + c) == Rewrote(a + t + c, |a|, |t|,
        Anchor(w, CountOpen(a, |a|) + (if t[0] == '(' && !Escaped(a, |a|) then 1 else 0)))
  {
    FindRefAfter(a, w, c);
    Pieces(a, w, c);
    CurlsAtSite(a, lexems[w].regex, c);
  }

  /** The three parts of `a + w + c`, recovered by slicing. */
  lemma Pieces(a: string, w: string, c: string)
    ensures var s := a + w + c;
      s[..|a|] == a && s[|a|..|a| + |w|] == w && s[|a| + |w|..] == c
  {
  }

  /** Two turns followed by a text without tokens: `Expand` records both anchors. */
  lemma ExpandTwice(lexems: map<string, Lexem>, s: string, fuel: nat)
    requires fuel >= 2 && Step(lexems, s).Rewrote?
    requires Step(lexems, Step(lexems, s).next).Rewrote?
    requires !ContainsToken(Step(lexems, Step(lexems, s).next).next)
    ensures var r1 := Step(lexems, s); var r2 := Step(lexems, r1.next);
      Expand(lexems, s, [], fuel) == Expanded(r2.next, [r1.anchor, r2.anchor])
  {
    var r1 := Step(lexems, s);
    var r2 := Step(lexems, r1.next);
    Stability.ExpandTurn(lexems, s, [], fuel);
    Stability.ExpandTurn(lexems, r1.next, [r1.anchor], fuel - 1);
    assert [] + [r1.anchor] == [r1.anchor];
    assert [r1.anchor] + [r2.anchor] == [r1.anchor, r2.anchor];
  }

  /** A spec without tokens is stored verbatim with no anchors. */
  lemma InsertPlain(lx: Lexer, name: string, spec: string, fuel: nat)
    requires '<' !in spec
    ensures Insert(lx, name, spec, fuel) == Returned(true, Lexer(lx.lexems[name := Lexem(spec, spec, [])]))
  {
    NoAngleNoToken(spec);
  }

  /** The registry after lines 141-142. */
  const Digits: map<string, Lexem> :=
    map["<non_zero_digit>" := Lexem(NonZeroDigit, NonZeroDigit, []), "<digit>" := Lexem(Digit, Digit, [])]

  /** The spec of line 143 after its first substitution. */
  const DecIntegerOnce: string := "(([1-9])(_?<digit>)*|0+(_?0)*)"

  /** The regex stored for `<dec_integer>`. */
  const DecIntegerRegex: string := "(([1-9])(_?([0-9]))*|0+(_?0)*)"

  /** Lines 141-142: both digit classes hold no reference and are stored as given. */
  lemma DigitsRegistered()
    ensures Insert(EmptyLexer, "<non_zero_digit>", NonZeroDigit, |NonZeroDigit|)
      == Returned(true, Lexer(map["<non_zero_digit>" := Lexem(NonZeroDigit, NonZeroDigit, [])]))
    ensures Insert(Lexer(map["<non_zero_digit>" := Lexem(NonZeroDigit, NonZeroDigit, [])]), "<digit>", Digit, |Digit|)
      == Returned(true, Lexer(Digits))
  {
    InsertPlain(EmptyLexer, "<non_zero_digit>", NonZeroDigit, |NonZeroDigit|);
    InsertPlain(Lexer(map["<non_zero_digit>" := Lexem(NonZeroDigit, NonZeroDigit, [])]), "<digit>", Digit, |Digit|);
    assert map["<non_zero_digit>" := Lexem(NonZeroDigit, NonZeroDigit, [])]["<digit>" := Lexem(Digit, Digit, [])] == Digits;
  }

  /** The spec of line 143 cut at its first reference. */
  lemma DecIntegerSpelledFirst()
    ensures DecInteger == "(" + "<non_zero_digit>" + "(_?<digit>)*|0+(_?0)*)"
  {
  }

  /** The spec of line 143 with its first reference replaced. */
  lemma DecIntegerReplacedFirst()
    ensures "(" + NonZeroDigit + "(_?<digit>)*|0+(_?0)*)" == DecIntegerOnce
  {
  }

  /** The once-expanded spec of line 143 cut at its second reference, and
      the result of replacing it. */
  lemma DecIntegerSpelledSecond()
    ensures DecIntegerOnce == "(([1-9])(_?" + "<digit>" + ")*|0+(_?0)*)"
    ensures "(([1-9])(_?" + Digit + ")*|0+(_?0)*)" == DecIntegerRegex
  {
  }

  /** The first turn on line 143's spec: `<non_zero_digit>` sits after one `(`,
      and its own regex opens the second group. */
  lemma DecIntegerFirstStep()
    ensures Step(Digits, DecInteger) == Rewrote(DecIntegerOnce, 1, 7, Anchor("<non_zero_digit>", 2))
  {
    var a, w, c := "(", "<non_zero_digit>", "(_?<digit>)*|0+(_?0)*)";
    DecIntegerSpelledFirst();
    DecIntegerReplacedFirst();
    StepAt(Digits, a, w, c);
  }

  /** Three unescaped `(` come before the position of `<digit>`. */
  lemma DecIntegerOpenBefore()
    ensures CountOpen("(([1-9])(_?", 11) == 3
  {
    assert CountOpen("(([1-9])(_?", 5) == 2;
  }

  /** The second turn: `<digit>` follows three unescaped `(` and its own regex
      opens the fourth group. */
  lemma DecIntegerSecondStep()
    ensures Step(Digits, DecIntegerOnce) == Rewrote(DecIntegerRegex, 11, 7, Anchor("<digit>", 4))
  {
    var a, w, c := "(([1-9])(_?", "<digit>", ")*|0+(_?0)*)";
    DecIntegerSpelledSecond();
    DecIntegerOpenBefore();
    DecIntegerSecondSite();
    StepAtGroup(Digits, a, w, c, Digit, 4, DecIntegerOnce, DecIntegerRegex);
  }

  /** The site of `<digit>` is not escaped and its regex opens a group. */
  lemma DecIntegerSecondSite()
    ensures "<digit>" in Digits && Digits["<digit>"].regex == Digit && |Digit| == 7 && Digit[0] == '('
    ensures IsToken("<digit>") && '<' !in "(([1-9])(_?" && |"(([1-9])(_?"| == 11
    ensures !Escaped("(([1-9])(_?", 11)
  {
  }

  /** The regex stored for line 143 holds no `<`, hence no reference. */
  lemma DecIntegerRegexPlain()
    ensures !ContainsToken(DecIntegerRegex)
  {
    assert '<' !in DecIntegerRegex;
    NoAngleNoToken(DecIntegerRegex);
  }

  /** Two turns expand line 143's spec completely, given fuel for both. */
  lemma DecIntegerExpands(fuel: nat)
    requires fuel >= 2
    ensures Expand(Digits, DecInteger, [], fuel) == Expanded(DecIntegerRegex, [Anchor("<non_zero_digit>", 2), Anchor("<digit>", 4)])
  {
    DecIntegerFirstStep();
    DecIntegerSecondStep();
    DecIntegerRegexPlain();
    ExpandTwice(Digits, DecInteger, fuel);
  }

  /** Line 143: with `<non_zero_digit>` and `<digit>` registered, `<dec_integer>`
      expands both references and records them with group indices 2 and 4. Each
      inserted regex opens a group of its own, which the count includes. */
  lemma DecIntegerAnchors()
    ensures Insert(Lexer(Digits), "<dec_integer>", DecInteger, |DecInteger|) == Returned(true, Lexer(Digits[
      "<dec_integer>" := Lexem(DecInteger, DecIntegerRegex, [Anchor("<non_zero_digit>", 2), Anchor("<digit>", 4)])]))
  {
    DecIntegerExpands(|DecInteger|);
  }

  /** The registry after lines 254-255. */
  const IdParts: map<string, Lexem> :=
    map["<id_start>" := Lexem(IdStart, IdStart, []), "<id_continue>" := Lexem(IdContinue, IdContinue, [])]

  /** The spec of line 256 after its first substitution. */
  const IdentifierOnce: string := "(\\b[a-zA-Z_]<id_continue>*\\b)"

  /** The regex stored for `<identifier>`. */
  const IdentifierRegex: string := "(\\b[a-zA-Z_][0-9a-zA-z_]*\\b)"

  /** Lines 254-255: both classes hold no reference and are stored as given. */
  lemma IdPartsRegistered()
    ensures Insert(EmptyLexer, "<id_start>", IdStart, |IdStart|)
      == Returned(true, Lexer(map["<id_start>" := Lexem(IdStart, IdStart, [])]))
    ensures Insert(Lexer(map["<id_start>" := Lexem(IdStart, IdStart, [])]), "<id_continue>", IdContinue, |IdContinue|)
      == Returned(true, Lexer(IdParts))
  {
    InsertPlain(EmptyLexer, "<id_start>", IdStart, |IdStart|);
    InsertPlain(Lexer(map["<id_start>" := Lexem(IdStart, IdStart, [])]), "<id_continue>", IdContinue, |IdContinue|);
    assert map["<id_start>" := Lexem(IdStart, IdStart, [])]["<id_continue>" := Lexem(IdContinue, IdContinue, [])] == IdParts;
  }

  /** The spec of line 256 cut at its first reference, and the result of
      replacing it. */
  lemma IdentifierSpelledFirst()
    ensures Identifier == "(\\b" + "<id_start>" + "<id_continue>*\\b)"
    ensures "(\\b" + IdStart + "<id_continue>*\\b)" == IdentifierOnce
  {
  }

  /** The once-expanded spec of line 256 cut at its second reference, and
      the result of replacing it. */
  lemma IdentifierSpelledSecond()
    ensures IdentifierOnce == "(\\b[a-zA-Z_]" + "<id_continue>" + "*\\b)"
    ensures "(\\b[a-zA-Z_]" + IdContinue + "*\\b)" == IdentifierRegex
  {
  }

  /** The first turn on line 256's spec: `<id_start>` follows the spec's `(`
      and its regex is a class, not a group. */
  lemma IdentifierFirstStep()
    ensures Step(IdParts, Identifier) == Rewrote(IdentifierOnce, 3, 9, Anchor("<id_start>", 1))
  {
    var a, w, c := "(\\b", "<id_start>", "<id_continue>*\\b)";
    IdentifierSpelledFirst();
    StepAt(IdParts, a, w, c);
  }

  /** `[a-zA-Z_]` holds no `(`: one `(` precedes `<id_continue>`. */
  lemma IdentifierOpenBefore()
    ensures CountOpen("(\\b[a-zA-Z_]", 12) == 1
  {
    assert CountOpen("(\\b[a-zA-Z_]", 6) == 1;
  }

  /** The second turn: `<id_continue>` still sits in group 1. */
  lemma IdentifierSecondStep()
    ensures Step(IdParts, IdentifierOnce) == Rewrote(IdentifierRegex, 12, 12, Anchor("<id_continue>", 1))
  {
    var a, w, c := "(\\b[a-zA-Z_]", "<id_continue>", "*\\b)";
    IdentifierSpelledSecond();
    StepAt(IdParts, a, w, c);
    IdentifierOpenBefore();
  }

  /** The regex stored for line 256 holds no `<`, hence no reference. */
  lemma IdentifierRegexPlain()
    ensures !ContainsToken(IdentifierRegex)
  {
    assert '<' !in IdentifierRegex;
    NoAngleNoToken(IdentifierRegex);
  }

  /** Two turns expand line 256's spec completely, given fuel for both. */
  lemma IdentifierExpands(fuel: nat)
    requires fuel >= 2
    ensures Expand(IdParts, Identifier, [], fuel) == Expanded(IdentifierRegex, [Anchor("<id_start>", 1), Anchor("<id_continue>", 1)])
  {
    IdentifierFirstStep();
    IdentifierSecondStep();
    IdentifierRegexPlain();
    ExpandTwice(IdParts, Identifier, fuel);
  }

  /** Line 256: the regexes of `<id_start>` and `<id_continue>` are character
      classes, not groups, so both references are recorded under group index 1,
      the group opened by the spec's own first `(`. */
  lemma IdentifierAnchors()
    ensures Insert(Lexer(IdParts), "<identifier>", Identifier, |Identifier|) == Returned(true, Lexer(IdParts[
      "<identifier>" := Lexem(Identifier, IdentifierRegex, [Anchor("<id_start>", 1), Anchor("<id_continue>", 1)])]))
  {
    IdentifierExpands(|Identifier|);
  }

  /** The leftward backslash scan stops before index 0: a `(` right after a
      backslash at index 0 still counts, while the same pair one place later
      does not. */
  lemma EscapeAtStartIgnored()
    ensures Curls("\\(", 1) == 1
    ensures Curls("a\\(", 2) == 0
    ensures Curls("a\\\\(", 3) == 1
  {
  }

  /** A `(` inside a character class is counted like any other. */
  lemma ParenInClassCounted()
    ensures Curls("[(]", 1) == 1
    ensures Curls("([(]", 2) == 2
  {
  }
}

=== FILE: groups.dfy ===
/** Counting of capture groups as `Lexer::insert` does it (PythonLexer/lexer.cpp,
    lines 57-76): an opening parenthesis counts unless an odd run of backslashes
    stands immediately to its left, where the leftward scan never looks at index 0.
    A parenthesis inside a character class is counted like any other. */
module Groups {

  /** The number of consecutive backslashes immediately left of index `i`, scanning
      leftwards but never inspecting index 0. */
  function BackslashRun(s: string, i: nat): (k: nat)
    requires i <= |s|
    ensures i < 2 ==> k == 0
    ensures i >= 2 ==> k <= i - 1
    ensures forall j :: i - k <= j < i ==> s[j] == '\\'
    ensures i - k >= 2 ==> s[i - k - 1] != '\\'
  {
    if i >= 2 && s[i - 1] == '\\' then 1 + BackslashRun(s, i - 1) else 0
  }

  /** The parenthesis at `i` is escaped. */
  predicate Escaped(s: string, i: nat)
    requires i <= |s|
  {
    BackslashRun(s, i) % 2 == 1
  }

  /** Index `i` holds an unescaped `(`; index `|s|`, the terminating NUL of a
      `std::string`, never does. */
  predicate OpensGroup(s: string, i: nat)
    requires i <= |s|
  {
    i < |s| && s[i] == '(' && !Escaped(s, i)
  }

  /** The number of unescaped `(` at indices below `n`. */
  function CountOpen(s: string, n: nat): (c: nat)
    requires n <= |s| + 1
    ensures c <= n
  {
    if n == 0 then 0
    else CountOpen(s, n - 1) + (if OpensGroup(s, n - 1) then 1 else 0)
  }

  /** The anchor index recorded for a substitution at `pos`: the unescaped `(` at
      indices 0 through `pos` inclusive. */
  function Curls(s: string, pos: nat): nat
    requires pos <= |s|
  {
    CountOpen(s, pos + 1)
  }

  /** The nested loops of lines 57-76, which compute `Curls`. */
  method CountCurls(regex: string, pos: nat) returns (curls: nat)
    requires pos <= |regex|
    ensures curls == Curls(regex, pos)
    ensures curls <= pos + 1
  {
    curls := 0;
    var i := 0;
    while i < pos + 1
      invariant 0 <= i <= pos + 1
      invariant curls == CountOpen(regex, i)
    {
      if i < |regex| && regex[i] == '(' {
        var escaped := false;
        var j := 1;
        while 0 < i - j
          invariant 1 <= j <= i + 1
          invariant BackslashRun(regex, i) == (j - 1) + BackslashRun(regex, i - j + 1)
          invariant escaped == ((j - 1) % 2 == 1)
          decreases i - j
        {
          if regex[i - j] != '\\' {
            break;
          }
          escaped := !escaped;
          j := j + 1;
        }
        if !escaped {
          curls := curls + 1;
        }
      }
      i := i + 1;
    }
  }

  /** The backslash run left of `i` depends only on the characters below `i`. */
  lemma {:induction false} BackslashRunPrefix(s: string, t: string, i: nat)
    requires i <= |s| && i <= |t| && s[..i] == t[..i]
    ensures BackslashRun(s, i) == BackslashRun(t, i)
    decreases i
  {
    if i >= 2 {
      assert s[i - 1] == s[..i][i - 1] == t[..i][i - 1] == t[i - 1];
      assert s[..i - 1] == s[..i][..i - 1] == t[..i][..i - 1] == t[..i - 1];
      BackslashRunPrefix(s, t, i - 1);
    }
  }

  /** The count below `n` depends only on the characters below `n`. */
  lemma {:induction false} CountOpenPrefix(s: string, t: string, n: nat)
    requires n <= |s| && n <= |t| && s[..n] == t[..n]
    ensures CountOpen(s, n) == CountOpen(t, n)
    decreases n
  {
    if n > 0 {
      assert s[..n - 1] == s[..n][..n - 1] == t[..n][..n - 1] == t[..n - 1];
      CountOpenPrefix(s, t, n - 1);
      assert s[n - 1] == s[..n][n - 1] == t[..n][n - 1] == t[n - 1];
      BackslashRunPrefix(s, t, n - 1);
    }
  }

  /** The anchor index taken after a token was replaced by `target` between
      `prefix` and `suffix`: the unescaped `(` strictly before the substitution
      point, plus one iff the character now at that point is an unescaped `(` --
      the first character of `target`, or of `suffix` when `target` is empty. */
  lemma CurlsAtSite(prefix: string, target: string, suffix: string)
    ensures var s := prefix + target + suffix;
      Curls(s, |prefix|) == CountOpen(prefix, |prefix|) +
        (if |s| > |prefix| && s[|prefix|] == '(' && !Escaped(prefix, |prefix|) then 1 else 0)
    ensures |target| > 0 ==> var s := prefix + target + suffix;
      Curls(s, |prefix|) == CountOpen(prefix, |prefix|) +
        (if target[0] == '(' && !Escaped(prefix, |prefix|) then 1 else 0)
  {
    var s := prefix + target + suffix;
    var p := |prefix|;
    assert s[..p] == prefix[..p];
    CountOpenPrefix(s, prefix, p);
    BackslashRunPrefix(s, prefix, p);
  }
}

=== FILE: highlight.dfy ===
/** `colorize` (PythonLexer/lexer.cpp, lines 5-28): the text is walked once, the
    gaps between matches are copied unchanged and every match is styled with a
    background chosen per label. The ANSI bytes that `format` would produce are not
    modelled; the output is a sequence of plain and styled segments instead. */
module Highlight {

  import opened Records

  /** A piece of output: text copied as is, or text wrapped in a style. */
  datatype Segment = Plain(text: string) | Styled(text: string, fg: int, bg: int)

  /** `ansi::fg::iso::DEFAULT`, the foreground every match gets. */
  const DefaultFg: int := 39

  /** The backgrounds handed out to labels, in order, before wrapping around. */
  const BgMin: int := 41
  const BgMax: int := 46

  /** The output with all styling removed. */
  function Strip(out: seq<Segment>): string
  {
    if out == [] then [] else Strip(out[..|out| - 1]) + out[|out| - 1].text
  }

  /** The labels of `ms`, in order. */
  function Tags(ms: seq<Match>): (ts: seq<string>)
    ensures |ts| == |ms| && forall i :: 0 <= i < |ms| ==> ts[i] == ms[i].tag
  {
    seq(|ms|, i requires 0 <= i < |ms| => ms[i].tag)
  }

  // Labels in order of first sight

  /** The different labels among the first `i` of `ts`, in order of first sight. */
  function FirstSeen(ts: seq<string>, i: nat): seq<string>
    requires i <= |ts|
  {
    if i == 0 then []
    else
      var d := FirstSeen(ts, i - 1);
      if ts[i - 1] in d then d else d + [ts[i - 1]]
  }

  /** `FirstSeen` lists exactly the labels that occur among the first `i`. */
  lemma {:induction false} FirstSeenHas(ts: seq<string>, i: nat)
    requires i <= |ts|
    ensures forall k :: 0 <= k < i ==> ts[k] in FirstSeen(ts, i)
    ensures forall x :: x in FirstSeen(ts, i) ==> exists k :: 0 <= k < i && ts[k] == x
  {
    if i > 0 {
      FirstSeenHas(ts, i - 1);
    }
  }

  /** `FirstSeen` never lists a label twice. */
  lemma {:induction false} FirstSeenUnique(ts: seq<string>, i: nat)
    requires i <= |ts|
    ensures forall a, b :: 0 <= a < b < |FirstSeen(ts, i)| ==> FirstSeen(ts, i)[a] != FirstSeen(ts, i)[b]
  {
    if i > 0 {
      FirstSeenUnique(ts, i - 1);
    }
  }

  /** Looking further only appends to the labels seen so far. */
  lemma {:induction false} FirstSeenPrefix(ts: seq<string>, i: nat, j: nat)
    requires i <= j <= |ts|
    ensures |FirstSeen(ts, i)| <= |FirstSeen(ts, j)|
    ensures FirstSeen(ts, j)[..|FirstSeen(ts, i)|] == FirstSeen(ts, i)
    decreases j
  {
    if i < j {
      FirstSeenPrefix(ts, i, j - 1);
      var d := FirstSeen(ts, j - 1);
      var n := |FirstSeen(ts, i)|;
      if ts[j - 1] !in d {
        assert (d + [ts[j - 1]])[..n] == d[..n];
      }
    }
  }

  /** The background of label `tag` among the labels `ts`: as many labels as were
      seen before its first occurrence, counted round 41, 42, ..., 46, 41, ... */
  function Background(ts: seq<string>, tag: string): (b: int)
    requires tag in ts
    ensures BgMin <= b <= BgMax
  {
    BgMin + |FirstSeen(ts, FirstIndex(ts, tag))| % (BgMax - BgMin + 1)
  }

  /** Labels are numbered in order of first sight: a label's background is picked
      by its position among the different labels. */
  lemma BackgroundByRank(ts: seq<string>, tag: string)
    requires tag in ts
    ensures tag in FirstSeen(ts, |ts|)
    ensures Background(ts, tag) == BgMin + FirstIndex(FirstSeen(ts, |ts|), tag) % (BgMax - BgMin + 1)
  {
    var k := FirstIndex(ts, tag);
    FirstSeenHas(ts, k);
    var d := FirstSeen(ts, k);
    assert tag !in d;
    assert FirstSeen(ts, k + 1) == d + [tag];
    FirstSeenPrefix(ts, k + 1, |ts|);
    var all := FirstSeen(ts, |ts|);
    assert all[|d|] == (d + [tag])[|d|];
    FirstSeenUnique(ts, |ts|);
    FirstIndexIs(all, tag, |d|);
  }

  // The label map of `colorize`

  /** The label map and offset of `colorize` after its first `i` turns. */
  function LabelMap(ts: seq<string>, i: nat): (map<string, int>, int)
    requires i <= |ts|
  {
    if i == 0 then (map[], 0)
    else
      var bg := LabelMap(ts, i - 1).0;
      var offset := LabelMap(ts, i - 1).1;
      if ts[i - 1] in bg then (bg, offset)
      else (bg[ts[i - 1] := BgMin + offset], if BgMin + offset + 1 > BgMax then 0 else offset + 1)
  }

  /** The label map and offset after `i` turns: exactly the labels seen so far are
      mapped, each to its background, and the offset is the number of labels seen
      so far, modulo six. */
  ghost predicate LabelMapAt(ts: seq<string>, i: nat, bg: map<string, int>, offset: int)
    requires i <= |ts|
  {
    && (forall l :: l in bg <==> l in FirstSeen(ts, i))
    && (forall l :: l in bg ==> l in ts && bg[l] == Background(ts, l))
    && offset == |FirstSeen(ts, i)| % (BgMax - BgMin + 1)
  }

  /** After `i` turns the label map and offset are as `LabelMapAt` says. */
  lemma {:induction false} LabelMapMeaning(ts: seq<string>, i: nat)
    requires i <= |ts|
    ensures LabelMapAt(ts, i, LabelMap(ts, i).0, LabelMap(ts, i).1)
  {
    if i > 0 {
      LabelMapMeaning(ts, i - 1);
      LabelMapStep(ts, i - 1, i);
    }
  }

  /** One turn of the label map keeps `LabelMapAt`, whether the label was seen
      before or not. */
  lemma LabelMapStep(ts: seq<string>, i: nat, j: nat)
    requires j == i + 1 && j <= |ts| && LabelMapAt(ts, i, LabelMap(ts, i).0, LabelMap(ts, i).1)
    ensures LabelMapAt(ts, j, LabelMap(ts, j).0, LabelMap(ts, j).1)
  {
    var bg, offset := LabelMap(ts, i).0, LabelMap(ts, i).1;
    if ts[i] in bg {
      assert LabelMap(ts, j) == (bg, offset);
      LabelMapKnown(ts, i, j, bg, offset);
    } else {
      var offset' := if BgMin + offset + 1 > BgMax then 0 else offset + 1;
      assert LabelMap(ts, j) == (bg[ts[i] := BgMin + offset], offset');
      LabelMapFresh(ts, i, j, bg, offset);
    }
  }

  /** A label seen before changes neither the map nor the offset. */
  lemma LabelMapKnown(ts: seq<string>, i: nat, j: nat, bg: map<string, int>, offset: int)
    requires j == i + 1 && j <= |ts| && LabelMapAt(ts, i, bg, offset) && ts[i] in bg
    ensures LabelMapAt(ts, j, bg, offset)
  {
    assert FirstSeen(ts, j) == FirstSeen(ts, i);
  }

  /** A label seen for the first time is mapped to the background at the offset,
      and the offset moves on by one, wrapping to 0 after the sixth. */
  lemma LabelMapFresh(ts: seq<string>, i: nat, j: nat, bg: map<string, int>, offset: int)
    requires j == i + 1 && j <= |ts| && LabelMapAt(ts, i, bg, offset) && ts[i] !in bg
    ensures LabelMapAt(ts, j, bg[ts[i] := BgMin + offset], if BgMin + offset + 1 > BgMax then 0 else offset + 1)
  {
    var x := ts[i];
    var d := FirstSeen(ts, i);
    assert FirstSeen(ts, j) == d + [x];
    FreshLabel(ts, i);
    WrapStep(|d|);
  }

  /** A label first seen at turn `i` gets the background for the labels seen
      before it. */
  lemma FreshLabel(ts: seq<string>, i: nat)
    requires i < |ts| && ts[i] !in FirstSeen(ts, i)
    ensures Background(ts, ts[i]) == BgMin + |FirstSeen(ts, i)| % (BgMax - BgMin + 1)
  {
    FirstSeenHas(ts, i);
    FirstIndexIs(ts, ts[i], i);
  }

  /** Counting on by one, modulo six. */
  lemma WrapStep(n: nat)
    ensures n % 6 == 5 ==> (n + 1) % 6 == 0
    ensures n % 6 < 5 ==> (n + 1) % 6 == n % 6 + 1
  {
  }

  /** The map `colorize` uses at turn `i` gives the label its background. */
  lemma LabelMapHas(ts: seq<string>, i: nat)
    requires i < |ts|
    ensures ts[i] in LabelMap(ts, i + 1).0 && ts[i] in ts
    ensures LabelMap(ts, i + 1).0[ts[i]] == Background(ts, ts[i])
  {
    LabelMapMeaning(ts, i + 1);
    assert ts[i] in FirstSeen(ts, i + 1);
  }

  /** The label lookup at the top of `colorize`'s loop: a label not yet in the
      map gets the background at the offset, and the offset moves on, wrapping
      to 0 past the last background. The map and offset stay those of
      `LabelMap`, and the label ends up mapped to its background. */
  method PickBackground(bg: map<string, int>, offset: int, tag: string, ghost ts: seq<string>, ghost i: nat)
    returns (bg': map<string, int>, offset': int)
    requires i < |ts| && ts[i] == tag && bg == LabelMap(ts, i).0 && offset == LabelMap(ts, i).1
    ensures bg' == LabelMap(ts, i + 1).0 && offset' == LabelMap(ts, i + 1).1
    ensures tag in bg' && bg'[tag] == Background(ts, tag)
  {
    bg', offset' := bg, offset;
    if tag !in bg {
      bg' := bg[tag := BgMin + offset];
      offset' := offset + 1;
      if BgMin + offset' > BgMax {
        offset' := 0;
      }
    }
    LabelMapHas(ts, i);
  }

  // The output of `colorize`

  /** The background of every match, in order. */
  function Backgrounds(ms: seq<Match>): (cs: seq<int>)
    ensures |cs| == |ms|
  {
    seq(|ms|, i requires 0 <= i < |ms| => assert Tags(ms)[i] == ms[i].tag; Background(Tags(ms), ms[i].tag))
  }

  /** Match `i` is styled with its label's background. */
  lemma BackgroundsAt(ms: seq<Match>, i: nat)
    requires i < |ms|
    ensures ms[i].tag in Tags(ms) && Backgrounds(ms)[i] == Background(Tags(ms), ms[i].tag)
  {
    assert Tags(ms)[i] == ms[i].tag;
  }

  /** Where the gap before match `i` starts: the end of the previous match. */
  function GapStart(ms: seq<Match>, i: nat): nat
    requires i <= |ms|
  {
    if i == 0 then 0 else End(ms[i - 1])
  }

  /** The two segments `colorize` emits for match `i`: the gap before it, plain,
      and the match itself, styled. */
  predicate PairAt(text: string, ms: seq<Match>, cs: seq<int>, out: seq<Segment>, i: nat)
    requires i < |ms| == |cs| && 2 * i + 1 < |out|
  {
    && GapStart(ms, i) <= ms[i].pos
    && End(ms[i]) <= |text|
    && out[2 * i] == Plain(text[GapStart(ms, i)..ms[i].pos])
    && out[2 * i + 1] == Styled(text[ms[i].pos..End(ms[i])], DefaultFg, cs[i])
  }

  /** Every styled segment has the default foreground and one of the six
      backgrounds. */
  predicate StyleBounded(out: seq<Segment>)
  {
    forall k :: 0 <= k < |out| && out[k].Styled? ==> out[k].fg == DefaultFg && BgMin <= out[k].bg <= BgMax
  }

  /** The output for the first `i` matches, styled with backgrounds `cs`: their
      pairs of segments, in order, spelling out the text up to the end of match
      `i - 1`. */
  ghost predicate RenderedUpTo(text: string, ms: seq<Match>, cs: seq<int>, out: seq<Segment>, i: nat)
    requires i <= |ms| == |cs|
  {
    && |out| == 2 * i
    && GapStart(ms, i) <= |text|
    && Strip(out) == text[..GapStart(ms, i)]
    && (forall i' :: 0 <= i' < i ==> PairAt(text, ms, cs, out, i'))
    && StyleBounded(out)
  }

  /** The pair for match `i` extends the output for the matches before it. */
  lemma RenderedSnoc(text: string, ms: seq<Match>, cs: seq<int>, out: seq<Segment>, i: nat)
    requires i < |ms| == |cs| && BgMin <= cs[i] <= BgMax
    requires GapStart(ms, i) <= ms[i].pos && End(ms[i]) <= |text|
    requires RenderedUpTo(text, ms, cs, out, i)
    ensures RenderedUpTo(text, ms, cs, out + [
      Plain(text[GapStart(ms, i)..ms[i].pos]),
      Styled(text[ms[i].pos..End(ms[i])], DefaultFg, cs[i])], i + 1)
  {
    var m := ms[i];
    var cursor := GapStart(ms, i);
    var gap := Plain(text[cursor..m.pos]);
    var body := Styled(text[m.pos..End(m)], DefaultFg, cs[i]);
    var out' := out + [gap, body];
    StripSnoc(out, gap);
    StripSnoc(out + [gap], body);
    assert out + [gap] + [body] == out';
    assert text[..cursor] + text[cursor..m.pos] + text[m.pos..End(m)] == text[..End(m)];
    forall i' | 0 <= i' < i + 1
      ensures PairAt(text, ms, cs, out', i')
    {
      if i' < i {
        assert PairAt(text, ms, cs, out, i');
      }
    }
  }

  /** The pair for match `i`, styled with its label's background, extends the
      output for the matches before it; the order of the matches keeps the gap
      well formed. */
  lemma RenderStep(text: string, ms: seq<Match>, cs: seq<int>, out: seq<Segment>, i: nat)
    requires Sorted(ms) && InBounds(text, ms) && cs == Backgrounds(ms)
    requires i < |ms| && RenderedUpTo(text, ms, cs, out, i)
    ensures cs[i] == Background(Tags(ms), ms[i].tag)
    ensures RenderedUpTo(text, ms, cs, out + [
      Plain(text[GapStart(ms, i)..ms[i].pos]),
      Styled(text[ms[i].pos..End(ms[i])], DefaultFg, cs[i])], i + 1)
  {
    BackgroundsAt(ms, i);
    if i > 0 {
      assert End(ms[i - 1]) <= ms[i].pos;
    }
    RenderedSnoc(text, ms, cs, out, i);
  }

  /** The segments for the first `i` matches: for each, the gap before it as
      plain text and the match itself styled with the default foreground and the
      background its label has by rank. */
  function Pairs(text: string, ms: seq<Match>, i: nat): seq<Segment>
    requires Sorted(ms) && InBounds(text, ms) && i <= |ms|
  {
    if i == 0 then []
    else
      var m := ms[i - 1];
      assert i - 1 > 0 ==> End(ms[i - 2]) <= m.pos;
      assert Tags(ms)[i - 1] == m.tag;
      Pairs(text, ms, i - 1) + [Plain(text[GapStart(ms, i - 1)..m.pos]), Styled(text[m.pos..End(m)], DefaultFg, Background(Tags(ms), m.tag))]
  }

  /** One match more appends its gap and its styled span. */
  lemma PairsSnoc(text: string, ms: seq<Match>, i: nat)
    requires Sorted(ms) && InBounds(text, ms) && i < |ms|
    ensures GapStart(ms, i) <= ms[i].pos <= End(ms[i]) <= |text|
    ensures Pairs(text, ms, i + 1) == Pairs(text, ms, i) + [
      Plain(text[GapStart(ms, i)..ms[i].pos]),
      Styled(text[ms[i].pos..End(ms[i])], DefaultFg, Background(Tags(ms), ms[i].tag))]
  {
    if i > 0 {
      assert End(ms[i - 1]) <= ms[i].pos;
    }
  }

  /** What `colorize` prints, stated without the lazily built label map: the
      pairs for all matches, then the rest of the text if any is left. */
  function Rendering(text: string, ms: seq<Match>): seq<Segment>
    requires Sorted(ms) && InBounds(text, ms)
  {
    var c := GapStart(ms, |ms|);
    Pairs(text, ms, |ms|) + if c < |text| then [Plain(text[c..])] else []
  }

  /** `colorize(text, matches)`: the label map grown one label at a time, with
      the offset wrapping round the six backgrounds, styles every match exactly
      as the rank of its label says, so the loop prints `Rendering`. */
  method Colorize(text: string, ms: seq<Match>) returns (out: seq<Segment>)
    requires Sorted(ms) && InBounds(text, ms)
    ensures out == Rendering(text, ms)
  {
    var bg: map<string, int> := map[];
    var offset := 0;
    var cursor := 0;
    out := [];
    ghost var ts := Tags(ms);
    var i := 0;
    while i < |ms|
      invariant 0 <= i <= |ms|
      invariant cursor == GapStart(ms, i)
      invariant out == Pairs(text, ms, i)
      invariant bg == LabelMap(ts, i).0 && offset == LabelMap(ts, i).1
    {
      var m := ms[i];
      assert ts[i] == m.tag;
      bg, offset := PickBackground(bg, offset, m.tag, ts, i);
      PairsSnoc(text, ms, i);
      out := out + [Plain(text[cursor..m.pos]), Styled(text[m.pos..End(m)], DefaultFg, bg[m.tag])];
      cursor := End(m);
      i := i + 1;
    }
    if cursor < |text| {
      out := out + [Plain(text[cursor..])];
    }
  }

  /** The pairs for the first `i` matches are the output `RenderedUpTo` describes. */
  lemma {:induction false} PairsRendered(text: string, ms: seq<Match>, i: nat)
    requires Sorted(ms) && InBounds(text, ms) && i <= |ms|
    ensures RenderedUpTo(text, ms, Backgrounds(ms), Pairs(text, ms, i), i)
  {
    if i > 0 {
      var j, cs := i - 1, Backgrounds(ms);
      var out := Pairs(text, ms, j);
      PairsRendered(text, ms, j);
      RenderStep(text, ms, cs, out, j);
      PairsSnoc(text, ms, j);
    }
  }

  /** Removing the styling from what `colorize` prints gives back the text. */
  lemma ColorizeStrip(text: string, ms: seq<Match>)
    requires Sorted(ms) && InBounds(text, ms)
    ensures Strip(Rendering(text, ms)) == text
  {
    RenderingFinished(text, ms);
  }

  /** Before each match `colorize` prints, as plain text, the gap since the end
      of the previous match. */
  lemma ColorizeGaps(text: string, ms: seq<Match>)
    requires Sorted(ms) && InBounds(text, ms)
    ensures forall i :: 0 <= i < |ms| ==>
      && 2 * i < |Rendering(text, ms)|
      && Rendering(text, ms)[2 * i] == Plain(text[GapStart(ms, i)..ms[i].pos])
  {
    RenderingFinished(text, ms);
  }

  /** Each match itself `colorize` prints with the default foreground and the
      background of its label. */
  lemma ColorizeSpans(text: string, ms: seq<Match>)
    requires Sorted(ms) && InBounds(text, ms)
    ensures forall i :: 0 <= i < |ms| ==>
      && 2 * i + 1 < |Rendering(text, ms)|
      && ms[i].tag in Tags(ms)
      && Rendering(text, ms)[2 * i + 1] == Styled(text[ms[i].pos..End(ms[i])], DefaultFg, Background(Tags(ms), ms[i].tag))
  {
    RenderingFinished(text, ms);
  }

  /** After the pairs, `colorize` prints the rest of the text as one plain
      segment when some is left, and nothing otherwise. */
  lemma ColorizeTail(text: string, ms: seq<Match>)
    requires Sorted(ms) && InBounds(text, ms)
    ensures |Rendering(text, ms)| == 2 * |ms| + (if GapStart(ms, |ms|) < |text| then 1 else 0)
    ensures |Rendering(text, ms)| > 2 * |ms| ==> Rendering(text, ms)[2 * |ms|] == Plain(text[GapStart(ms, |ms|)..])
  {
    RenderingFinished(text, ms);
  }

  /** Every span `colorize` styles gets the default foreground and one of the
      six backgrounds. */
  lemma ColorizeStyles(text: string, ms: seq<Match>)
    requires Sorted(ms) && InBounds(text, ms)
    ensures StyleBounded(Rendering(text, ms))
  {
    RenderingFinished(text, ms);
  }

  /** `Rendering` is the output `FinishRender` describes. */
  lemma RenderingFinished(text: string, ms: seq<Match>)
    requires Sorted(ms) && InBounds(text, ms)
    ensures RenderedUpTo(text, ms, Backgrounds(ms), Pairs(text, ms, |ms|), |ms|)
    ensures Strip(Rendering(text, ms)) == text
    ensures |Rendering(text, ms)| == 2 * |ms| + (if GapStart(ms, |ms|) < |text| then 1 else 0)
    ensures forall i :: 0 <= i < |ms| ==>
      && ms[i].tag in Tags(ms)
      && Rendering(text, ms)[2 * i] == Plain(text[GapStart(ms, i)..ms[i].pos])
      && Rendering(text, ms)[2 * i + 1] == Styled(text[ms[i].pos..End(ms[i])], DefaultFg, Background(Tags(ms), ms[i].tag))
    ensures |Rendering(text, ms)| > 2 * |ms| ==> Rendering(text, ms)[2 * |ms|] == Plain(text[GapStart(ms, |ms|)..])
    ensures StyleBounded(Rendering(text, ms))
  {
    PairsRendered(text, ms, |ms|);
    var out := Pairs(text, ms, |ms|);
    var c := GapStart(ms, |ms|);
    var out' := Rendering(text, ms);
    assert c >= |text| ==> out' == out;
    FinishRender(text, ms, Backgrounds(ms), out, out');
  }

  /** The output for all matches, followed by the rest of the text when some is
      left, has the shape `ColorizeGaps`, `ColorizeSpans` and `ColorizeTail` state. */
  lemma FinishRender(text: string, ms: seq<Match>, cs: seq<int>, out: seq<Segment>, out': seq<Segment>)
    requires Sorted(ms) && InBounds(text, ms) && cs == Backgrounds(ms) && RenderedUpTo(text, ms, cs, out, |ms|)
    requires out' == if GapStart(ms, |ms|) < |text| then out + [Plain(text[GapStart(ms, |ms|)..])] else out
    ensures Strip(out') == text
    ensures |out'| == 2 * |ms| + (if GapStart(ms, |ms|) < |text| then 1 else 0)
    ensures forall i :: 0 <= i < |ms| ==>
      && ms[i].tag in Tags(ms)
      && out'[2 * i] == Plain(text[GapStart(ms, i)..ms[i].pos])
      && out'[2 * i + 1] == Styled(text[ms[i].pos..End(ms[i])], DefaultFg, Background(Tags(ms), ms[i].tag))
    ensures |out'| > 2 * |ms| ==> out'[2 * |ms|] == Plain(text[GapStart(ms, |ms|)..])
    ensures StyleBounded(out')
  {
    FinishText(text, ms, cs, out, out');
    FinishPairs(text, ms, cs, out');
  }

  /** The tail completes the text and keeps the pairs and styles. */
  lemma FinishText(text: string, ms: seq<Match>, cs: seq<int>, out: seq<Segment>, out': seq<Segment>)
    requires |cs| == |ms| && RenderedUpTo(text, ms, cs, out, |ms|)
    requires out' == if GapStart(ms, |ms|) < |text| then out + [Plain(text[GapStart(ms, |ms|)..])] else out
    ensures Strip(out') == text
    ensures |out'| == 2 * |ms| + (if GapStart(ms, |ms|) < |text| then 1 else 0)
    ensures |out'| > 2 * |ms| ==> out'[2 * |ms|] == Plain(text[GapStart(ms, |ms|)..])
    ensures forall i :: 0 <= i < |ms| ==> PairAt(text, ms, cs, out', i)
    ensures StyleBounded(out')
  {
    var c := GapStart(ms, |ms|);
    if c < |text| {
      var tail := Plain(text[c..]);
      StripSnoc(out, tail);
      assert text[..c] + text[c..] == text;
      TailKeeps(text, ms, cs, out, tail);
    } else {
      assert text[..c] == text;
    }
  }

  /** The pairs carry the backgrounds of the labels. */
  lemma FinishPairs(text: string, ms: seq<Match>, cs: seq<int>, out: seq<Segment>)
    requires Sorted(ms) && InBounds(text, ms) && cs == Backgrounds(ms) && 2 * |ms| <= |out|
    requires forall i :: 0 <= i < |ms| ==> PairAt(text, ms, cs, out, i)
    ensures forall i :: 0 <= i < |ms| ==>
      && ms[i].tag in Tags(ms)
      && out[2 * i] == Plain(text[GapStart(ms, i)..ms[i].pos])
      && out[2 * i + 1] == Styled(text[ms[i].pos..End(ms[i])], DefaultFg, Background(Tags(ms), ms[i].tag))
  {
    forall i | 0 <= i < |ms|
      ensures ms[i].tag in Tags(ms)
      ensures out[2 * i] == Plain(text[GapStart(ms, i)..ms[i].pos])
      ensures out[2 * i + 1] == Styled(text[ms[i].pos..End(ms[i])], DefaultFg, Background(Tags(ms), ms[i].tag))
    {
      assert PairAt(text, ms, cs, out, i);
      BackgroundsAt(ms, i);
    }
  }

  /** A plain tail after the pairs leaves the pairs and styles as they are. */
  lemma TailKeeps(text: string, ms: seq<Match>, cs: seq<int>, out: seq<Segment>, tail: Segment)
    requires tail.Plain?
    requires |cs| == |ms| && RenderedUpTo(text, ms, cs, out, |ms|)
    ensures forall i :: 0 <= i < |ms| ==> PairAt(text, ms, cs, out + [tail], i)
    ensures StyleBounded(out + [tail])
  {
    var out' := out + [tail];
    forall i | 0 <= i < |ms|
      ensures PairAt(text, ms, cs, out', i)
    {
      assert PairAt(text, ms, cs, out, i);
      assert out'[2 * i] == out[2 * i] && out'[2 * i + 1] == out[2 * i + 1];
    }
  }

  /** One segment more adds its text at the end. */
  lemma StripSnoc(out: seq<Segment>, seg: Segment)
    ensures Strip(out + [seg]) == Strip(out) + seg.text
  {
    assert (out + [seg])[..|out|] == out;
  }
}

=== FILE: labelling.dfy ===
/** The labelling step of `Lexem::match` (PythonLexer/lexer.cpp, lines 89-107).
    The regex engine is not modelled: its matches arrive as `RawMatch` values
    carrying the span and the set of capture groups that took part. */
module Labelling {

  import opened Wrappers
  import opened Records

  /** One match of the compiled regex: where it starts, how long it is, and the
      indices of the capture groups that participated in it. In a match of
      `std::regex`, group 0, the whole match, always participates; the contracts
      below hold for every set of groups, with or without 0. */
  datatype RawMatch = RawMatch(pos: nat, len: nat, groups: set<nat>)

  /** The first anchor, in stored order, whose group took part in a match. */
  function FirstHit(anchors: seq<Anchor>, groups: set<nat>): (r: Option<nat>)
    ensures r.None? <==> forall k :: 0 <= k < |anchors| ==> anchors[k].pos !in groups
    ensures r.Some? ==> r.value < |anchors| && anchors[r.value].pos in groups
    ensures r.Some? ==> forall k :: 0 <= k < r.value ==> anchors[k].pos !in groups
  {
    if anchors == [] then None
    else if anchors[0].pos in groups then Some(0)
    else
      match FirstHit(anchors[1..], groups)
      case None => None
      case Some(k) => Some(k + 1)
  }

  /** The output a single raw match contributes: nothing when no anchor's group
      participated, otherwise the span under the first such anchor's name. */
  function Label(anchors: seq<Anchor>, raw: RawMatch): Option<Match>
  {
    match FirstHit(anchors, raw.groups)
    case None => None
    case Some(k) => Some(Match(anchors[k].name, raw.pos, raw.len))
  }

  /** The labelled matches of `raws`, raw by raw, in order. */
  function Labels(anchors: seq<Anchor>, raws: seq<RawMatch>): seq<Match>
  {
    if raws == [] then []
    else
      var init := Labels(anchors, raws[..|raws| - 1]);
      match Label(anchors, raws[|raws| - 1])
      case None => init
      case Some(m) => init + [m]
  }

  /** The raw matches come in ascending, non-overlapping order. */
  predicate RawSorted(raws: seq<RawMatch>)
  {
    forall i, j :: 0 <= i < j < |raws| ==> raws[i].pos + raws[i].len <= raws[j].pos
  }

  /** Every raw match lies inside `text`. */
  predicate RawInBounds(text: string, raws: seq<RawMatch>)
  {
    forall i :: 0 <= i < |raws| ==> raws[i].pos + raws[i].len <= |text|
  }

  /** `src` picks, in strictly ascending order, the raw matches that `ms` came
      from: each output copies its raw match's span and carries the name of the
      first anchor whose group participated, and a raw match is picked iff some
      anchor's group participated in it. */
  ghost predicate Traces(anchors: seq<Anchor>, raws: seq<RawMatch>, ms: seq<Match>, src: seq<nat>)
  {
    && |ms| == |src|
    && (forall j :: 0 <= j < |src| ==> src[j] < |raws|)
    && (forall j, j' :: 0 <= j < j' < |src| ==> src[j] < src[j'])
    && (forall j :: 0 <= j < |src| ==>
          && FirstHit(anchors, raws[src[j]].groups).Some?
          && ms[j] == Match(anchors[FirstHit(anchors, raws[src[j]].groups).value].name, raws[src[j]].pos, raws[src[j]].len))
    && (forall i :: 0 <= i < |raws| ==> (i in src <==> FirstHit(anchors, raws[i].groups).Some?))
  }

  /** `Lexem::match` after the regex search: for every raw match, try the anchors
      in stored order, skip those whose group did not participate, emit one match
      under the first that did, and stop looking. `src` records, for every output,
      the index of the raw match it came from. */
  method MatchAll(anchors: seq<Anchor>, raws: seq<RawMatch>) returns (ms: seq<Match>, src: seq<nat>)
    ensures ms == Labels(anchors, raws)
    ensures |ms| <= |raws|
    ensures Traces(anchors, raws, ms, src)
    ensures anchors == [] ==> ms == []
  {
    ms, src := [], [];
    var i := 0;
    while i < |raws|
      invariant 0 <= i <= |raws|
      invariant ms == Labels(anchors, raws[..i])
      invariant Traces(anchors, raws[..i], ms, src)
      invariant |ms| <= i
      invariant anchors == [] ==> ms == []
    {
      var raw := raws[i];
      var hit := ScanAnchors(anchors, raw.groups);
      MatchAllStep(anchors, raws, i, ms, src);
      if hit.Some? {
        ms := ms + [Match(anchors[hit.value].name, raw.pos, raw.len)];
        src := src + [i];
      }
      i := i + 1;
    }
    assert raws[..i] == raws;
  }

  /** One turn of the outer loop of `MatchAll`: the labels and the trace of the
      first `i` raw matches extend to the first `i + 1`. */
  lemma MatchAllStep(anchors: seq<Anchor>, raws: seq<RawMatch>, i: nat, ms: seq<Match>, src: seq<nat>)
    requires i < |raws| && ms == Labels(anchors, raws[..i]) && Traces(anchors, raws[..i], ms, src)
    ensures var raw := raws[i];
      match FirstHit(anchors, raw.groups)
      case None =>
        ms == Labels(anchors, raws[..i + 1]) && Traces(anchors, raws[..i + 1], ms, src)
      case Some(k) =>
        var ms' := ms + [Match(anchors[k].name, raw.pos, raw.len)];
        ms' == Labels(anchors, raws[..i + 1]) && Traces(anchors, raws[..i + 1], ms', src + [i])
  {
    var raw := raws[i];
    var pre := raws[..i];
    assert raws[..i + 1] == pre + [raw];
    LabelsSnoc(anchors, pre, raw);
    TracesSnoc(anchors, pre, raw, ms, src);
  }

  /** The inner loop of `Lexem::match`: the anchors in stored order, skipping
      those whose group did not participate, stopping at the first that did. */
  method ScanAnchors(anchors: seq<Anchor>, groups: set<nat>) returns (hit: Option<nat>)
    ensures hit.Some? ==> hit.value < |anchors| && anchors[hit.value].pos in groups
    ensures hit.Some? ==> forall k :: 0 <= k < hit.value ==> anchors[k].pos !in groups
    ensures hit.None? ==> forall k :: 0 <= k < |anchors| ==> anchors[k].pos !in groups
    ensures hit == FirstHit(anchors, groups)
  {
    hit := None;
    var k := 0;
    while k < |anchors|
      invariant 0 <= k <= |anchors|
      invariant forall k' :: 0 <= k' < k ==> anchors[k'].pos !in groups
    {
      if anchors[k].pos !in groups {
        k := k + 1;
        continue;
      }
      hit := Some(k);
      FirstHitIs(anchors, groups, k);
      return;
    }
  }

  /** The first participating anchor is the only index `FirstHit` can return. */
  lemma FirstHitIs(anchors: seq<Anchor>, groups: set<nat>, k: nat)
    requires k < |anchors| && anchors[k].pos in groups
    requires forall k' :: 0 <= k' < k ==> anchors[k'].pos !in groups
    ensures FirstHit(anchors, groups) == Some(k)
  {
  }

  /** One more raw match adds its label, if it has one, at the end. */
  lemma LabelsSnoc(anchors: seq<Anchor>, pre: seq<RawMatch>, raw: RawMatch)
    ensures Labels(anchors, pre + [raw]) ==
      match Label(anchors, raw)
      case None => Labels(anchors, pre)
      case Some(m) => Labels(anchors, pre) + [m]
  {
    assert (pre + [raw])[..|pre|] == pre;
  }

  /** Extending the raw matches by one extends the trace by it when it is picked. */
  lemma TracesSnoc(anchors: seq<Anchor>, pre: seq<RawMatch>, raw: RawMatch, ms: seq<Match>, src: seq<nat>)
    requires Traces(anchors, pre, ms, src)
    ensures Label(anchors, raw).None? ==> Traces(anchors, pre + [raw], ms, src)
    ensures Label(anchors, raw).Some? ==>
      Traces(anchors, pre + [raw], ms + [Label(anchors, raw).value], src + [|pre|])
  {
    var raws := pre + [raw];
    assert forall i :: 0 <= i < |pre| ==> raws[i] == pre[i];
    assert |pre| !in src;
    if Label(anchors, raw).Some? {
      var ms', src' := ms + [Label(anchors, raw).value], src + [|pre|];
      forall i | 0 <= i < |raws|
        ensures i in src' <==> FirstHit(anchors, raws[i].groups).Some?
      {
        if i < |pre| {
          assert i in src' <==> i in src;
        }
      }
    }
  }

  /** Labelling is done raw match by raw match, so it distributes over
      concatenation: matching two runs of raw matches is matching each. */
  lemma {:induction false} LabelsConcat(anchors: seq<Anchor>, a: seq<RawMatch>, b: seq<RawMatch>)
    ensures Labels(anchors, a + b) == Labels(anchors, a) + Labels(anchors, b)
    decreases |b|
  {
    if b == [] {
      assert a + b == a;
    } else {
      var b' := b[..|b| - 1];
      assert (a + b)[..|a + b| - 1] == a + b';
      LabelsConcat(anchors, a, b');
    }
  }

  /** Picking raw matches in ascending order keeps them ascending and inside the
      text: labelled output of sorted, in-bounds raw matches is sorted and in
      bounds, which is what `colorize` needs. */
  lemma TracesSorted(text: string, anchors: seq<Anchor>, raws: seq<RawMatch>, ms: seq<Match>, src: seq<nat>)
    requires Traces(anchors, raws, ms, src)
    ensures RawSorted(raws) ==> Sorted(ms)
    ensures RawInBounds(text, raws) ==> InBounds(text, ms)
  {
    if RawSorted(raws) {
      forall i, j | 0 <= i < j < |ms|
        ensures End(ms[i]) <= ms[j].pos
      {
        assert src[i] < src[j];
      }
    }
  }
}

=== FILE: palette.dfy ===
/** The label palette of PythonLexer/PythonLexer.cpp: the fixed list of styles
    `good_colors` (lines 10-29) and `assign` (lines 31-37), which hands the styles
    out to labels in turn. */
module Palette {

  import opened Records

  /** A style as written `Format(30, 41, 3)`: foreground, background and mode.
      The declaration of `Format` is not part of this model; the field order
      follows the calls in `good_colors`. */
  datatype Format = Format(fg: int, bg: int, mode: int)

  /** `good_colors()`: black text in mode 3 on the seven standard backgrounds
      41..47, then on the seven bright ones 101..107. */
  function GoodColors(): (cs: seq<Format>)
    ensures |cs| == 14
    ensures forall i :: 0 <= i < |cs| ==> cs[i].fg == 30 && cs[i].mode == 3
    ensures forall i :: 0 <= i < 7 ==> cs[i].bg == 41 + i
    ensures forall i :: 7 <= i < 14 ==> cs[i].bg == 101 + (i - 7)
  {
    [ Format(30, 41, 3), Format(30, 42, 3), Format(30, 43, 3), Format(30, 44, 3),
      Format(30, 45, 3), Format(30, 46, 3), Format(30, 47, 3),
      Format(30, 101, 3), Format(30, 102, 3), Format(30, 103, 3), Format(30, 104, 3),
      Format(30, 105, 3), Format(30, 106, 3), Format(30, 107, 3) ]
  }

  /** The backgrounds of `good_colors` strictly increase, so no two of its styles
      coincide. */
  lemma GoodColorsDistinct()
    ensures forall i, j :: 0 <= i < j < |GoodColors()| ==> GoodColors()[i].bg < GoodColors()[j].bg
  {
    var cs := GoodColors();
    forall i, j | 0 <= i < j < |cs|
      ensures cs[i].bg < cs[j].bg
    {
      if j < 7 {
      } else if i < 7 {
        assert cs[i].bg <= 47 && cs[j].bg >= 101;
      }
    }
  }

  /** What `assign(labels, colors)` builds, stated without a loop: every label is
      a key, there are no other keys, and a label holds the style for the index
      where it first occurs. */
  function Assignment(labels: seq<string>, colors: seq<Format>): map<string, Format>
    requires |labels| > 0 ==> |colors| > 0
  {
    map l | l in labels :: colors[FirstIndex(labels, l) % |colors|]
  }

  /** `assign(labels, colors)`: label `i` gets `colors[i % |colors|]` unless it has
      a style already, because `unordered_map::insert` keeps the first value
      stored under a key. */
  method Assign(labels: seq<string>, colors: seq<Format>) returns (m: map<string, Format>)
    requires |labels| > 0 ==> |colors| > 0
    ensures m == Assignment(labels, colors)
  {
    m := map[];
    var i := 0;
    while i < |labels|
      invariant 0 <= i <= |labels|
      invariant m.Keys == set l | l in labels[..i]
      invariant forall l :: l in m ==> l in labels && FirstIndex(labels, l) < i
      invariant forall l :: l in m ==> m[l] == colors[FirstIndex(labels, l) % |colors|]
    {
      var l := labels[i];
      assert labels[..i + 1] == labels[..i] + [l];
      if l !in m {
        FirstIndexIs(labels, l, i);
        m := m[l := colors[i % |colors|]];
      }
      i := i + 1;
    }
    assert labels[..i] == labels;
  }

  /** The map of `assign`: its keys are exactly the labels; the label first seen
      at index `i` holds `colors[i % |colors|]`, so a later duplicate never
      overwrites it; and every style handed out is one of `colors`. */
  lemma AssignmentMeaning(labels: seq<string>, colors: seq<Format>)
    requires |labels| > 0 ==> |colors| > 0
    ensures Assignment(labels, colors).Keys == set l | l in labels
    ensures forall i :: 0 <= i < |labels| && labels[i] !in labels[..i] ==>
      Assignment(labels, colors)[labels[i]] == colors[i % |colors|]
    ensures forall i, j :: 0 <= i < j < |labels| && labels[i] == labels[j] ==>
      Assignment(labels, colors)[labels[j]] == Assignment(labels, colors)[labels[i]]
    ensures forall l :: l in Assignment(labels, colors) ==> Assignment(labels, colors)[l] in colors
  {
  }
}

=== FILE: records.dfy ===
/** The records of PythonLexer/lexer.hpp: a labelled span, an anchor, a registered
    pattern ("lexem") and the registry that owns the patterns. */
module Records {

  /** A labelled span of the scanned text: `len` characters starting at `pos`; `tag`
      is the source's `label` field (a reserved word in Dafny). */
  datatype Match = Match(tag: string, pos: nat, len: nat)

  /** A directly referenced pattern name (angle brackets included) together with
      the number of `(` in the expanded regex, up to and including the point where
      it was substituted, that the source counts as unescaped. That is the group
      the pattern occupies only when its regex starts with an unescaped `(` and
      every counted `(` before the site opens a capturing group: a `(` inside a
      character class, the `(` of `(?:` or `(?=`, and a `(` right after a
      backslash at index 0 are counted too and make the index too high. */
  datatype Anchor = Anchor(name: string, pos: nat)

  /** A registered pattern: the caller's spec, its expanded regex and its anchors in
      substitution order. The compiled `std::regex` is not part of this model. */
  datatype Lexem = Lexem(spec: string, regex: string, anchors: seq<Anchor>)

  /** The registry, keyed by name; a map holds at most one pattern per name. */
  datatype Lexer = Lexer(lexems: map<string, Lexem>)

  /** What `operator[]` default-inserts for an absent name. */
  const EmptyLexem: Lexem := Lexem("", "", [])

  /** The state left by the constructor. */
  const EmptyLexer: Lexer := Lexer(map[])

  /** One past the last character of a span. */
  function End(m: Match): nat
  {
    m.pos + m.len
  }

  /** Spans in ascending order that do not overlap. */
  predicate Sorted(ms: seq<Match>)
  {
    forall i, j :: 0 <= i < j < |ms| ==> End(ms[i]) <= ms[j].pos
  }

  /** Every span lies inside `text`. */
  predicate InBounds(text: string, ms: seq<Match>)
  {
    forall i :: 0 <= i < |ms| ==> End(ms[i]) <= |text|
  }

  /** The names of `anchors`, in order. */
  function Names(anchors: seq<Anchor>): (ns: seq<string>)
    ensures |ns| == |anchors| && forall k :: 0 <= k < |anchors| ==> ns[k] == anchors[k].name
  {
    seq(|anchors|, k requires 0 <= k < |anchors| => anchors[k].name)
  }

  /** The position of the first `x` in `ys`. */
  function FirstIndex(ys: seq<string>, x: string): (k: nat)
    requires x in ys
    ensures k < |ys| && ys[k] == x
    ensures forall j :: 0 <= j < k ==> ys[j] != x
  {
    if ys[0] == x then 0 else 1 + FirstIndex(ys[1..], x)
  }

  /** An `x` at `i` with none before it is the first. */
  lemma FirstIndexIs(ys: seq<string>, x: string, i: nat)
    requires i < |ys| && ys[i] == x && x !in ys[..i]
    ensures FirstIndex(ys, x) == i
  {
  }
}

=== FILE: reference.dfy ===
/** Recognition of a reference token, the regex `<[a-zA-Z0-9_]+>` of
    PythonLexer/lexer.cpp, as a pure function on characters. */
module Reference {

  import opened Wrappers

  /** A character of the class `[a-zA-Z0-9_]`. */
  predicate IsWordChar(c: char)
  {
    ('a' <= c <= 'z') || ('A' <= c <= 'Z') || ('0' <= c <= '9') || c == '_'
  }

  /** A character that can occur somewhere in a token. */
  predicate InTokenAlphabet(c: char)
  {
    c == '<' || c == '>' || IsWordChar(c)
  }

  /** `w`, as a whole, is a token: `<`, one or more word characters, `>`. */
  predicate IsToken(w: string)
  {
    && |w| >= 3
    && w[0] == '<'
    && w[|w| - 1] == '>'
    && forall i :: 1 <= i < |w| - 1 ==> IsWordChar(w[i])
  }

  /** A token of length `n` starts at index `p` of `s`. */
  predicate TokenAt(s: string, p: nat, n: nat)
  {
    p + n <= |s| && IsToken(s[p..p + n])
  }

  /** Some substring of `s` is a token. */
  ghost predicate ContainsToken(s: string)
  {
    exists p: nat, n: nat :: TokenAt(s, p, n)
  }

  /** Position and length of a located token. */
  datatype Ref = Ref(pos: nat, len: nat)

  /** Every character of a token is in the token alphabet. */
  lemma TokenChars(s: string, p: nat, n: nat, i: nat)
    requires TokenAt(s, p, n)
    requires p <= i < p + n
    ensures InTokenAlphabet(s[i])
  {
    assert s[i] == s[p..p + n][i - p];
  }

  /** Length of the maximal run of word characters starting at `i`. */
  function WordRun(s: string, i: nat): (k: nat)
    requires i <= |s|
    ensures i + k <= |s|
    ensures forall j :: i <= j < i + k ==> IsWordChar(s[j])
    ensures i + k == |s| || !IsWordChar(s[i + k])
    decreases |s| - i
  {
    if i < |s| && IsWordChar(s[i]) then 1 + WordRun(s, i + 1) else 0
  }

  /** The length of the token starting at `p`, if one does. */
  function TokenLenAt(s: string, p: nat): (r: Option<nat>)
    requires p < |s|
    ensures r.Some? ==> r.value >= 3 && p + r.value <= |s|
  {
    if s[p] != '<' then None
    else
      var k := WordRun(s, p + 1);
      if k >= 1 && p + 1 + k < |s| && s[p + 1 + k] == '>' then Some(k + 2) else None
  }

  /** `TokenLenAt` recognises exactly the tokens starting at `p`; at most one
      length fits, because `>` is not a word character. */
  lemma TokenLenAtSpec(s: string, p: nat)
    requires p < |s|
    ensures forall n: nat :: TokenAt(s, p, n) <==> TokenLenAt(s, p) == Some(n)
  {
    if s[p] == '<' {
      var k := WordRun(s, p + 1);
      if k >= 1 && p + 1 + k < |s| && s[p + 1 + k] == '>' {
        assert s[p..p + k + 2][k + 1] == '>';
        TokenLenUnique(s, p, k);
      } else {
        NoTokenWithoutClose(s, p, k);
      }
    }
  }

  /** With the run of word characters after `<` known, only one length fits. */
  lemma TokenLenUnique(s: string, p: nat, k: nat)
    requires p + 1 <= |s| && k == WordRun(s, p + 1)
    ensures forall n: nat :: TokenAt(s, p, n) ==> n == k + 2
  {
    forall n: nat | TokenAt(s, p, n)
      ensures n == k + 2
    {
      var w := s[p..p + n];
      assert forall i :: 1 <= i < n - 1 ==> s[p + i] == w[i];
    }
  }

  /** When the run after `<` is empty or not closed by `>`, no token starts at `p`. */
  lemma NoTokenWithoutClose(s: string, p: nat, k: nat)
    requires p < |s| && k == WordRun(s, p + 1)
    requires !(s[p] == '<' && k >= 1 && p + 1 + k < |s| && s[p + 1 + k] == '>')
    ensures forall n: nat :: !TokenAt(s, p, n)
  {
    TokenLenUnique(s, p, k);
  }

  /** The leftmost token starting at or after `i`. */
  function FindRefFrom(s: string, i: nat): (r: Option<Ref>)
    requires i <= |s|
    ensures r.Some? ==> i <= r.value.pos && r.value.len >= 3 && r.value.pos + r.value.len <= |s|
    decreases |s| - i
  {
    if i == |s| then None
    else
      match TokenLenAt(s, i)
      case Some(n) => Some(Ref(i, n))
      case None => FindRefFrom(s, i + 1)
  }

  /** `FindRefFrom(s, i)` is the leftmost token starting at or after `i`. */
  lemma {:induction false} FindRefFromSpec(s: string, i: nat)
    requires i <= |s|
    ensures var r := FindRefFrom(s, i);
      && (r.Some? ==> TokenAt(s, r.value.pos, r.value.len))
      && (r.Some? ==> forall q: nat, m: nat :: i <= q < r.value.pos ==> !TokenAt(s, q, m))
      && (r.None? ==> forall q: nat, m: nat :: i <= q ==> !TokenAt(s, q, m))
    decreases |s| - i
  {
    if i < |s| {
      TokenLenAtSpec(s, i);
      if TokenLenAt(s, i).None? {
        FindRefFromSpec(s, i + 1);
      }
    }
  }

  /** The search of `std::regex_search(regex, match, ref)`: the leftmost token of `s`. */
  function FindRef(s: string): (r: Option<Ref>)
    ensures r.None? <==> !ContainsToken(s)
    ensures r.Some? ==> TokenAt(s, r.value.pos, r.value.len) && IsToken(s[r.value.pos..r.value.pos + r.value.len])
    ensures r.Some? ==> forall q: nat, m: nat :: q < r.value.pos ==> !TokenAt(s, q, m)
  {
    FindRefFromSpec(s, 0);
    FindRefFrom(s, 0)
  }

  /** The tokens of `s` from index `i` on, in order, each found by a leftmost
      search that resumes after the previous one. Tokens never overlap, so these
      are all the tokens starting at or after `i` (`TokensFromComplete`). */
  function TokensFrom(s: string, i: nat): (ts: seq<string>)
    requires i <= |s|
    ensures 3 * |ts| <= |s| - i
    decreases |s| - i
  {
    match FindRefFrom(s, i)
    case None => []
    case Some(ref) => [s[ref.pos..ref.pos + ref.len]] + TokensFrom(s, ref.pos + ref.len)
  }

  /** `r` moved `d` characters to the right. */
  function Shift(r: Option<Ref>, d: nat): Option<Ref>
  {
    match r
    case None => None
    case Some(ref) => Some(Ref(ref.pos + d, ref.len))
  }

  /** A token starting inside the `c` part of `a + c` lies wholly inside it. */
  lemma TokenAtShift(a: string, c: string, j: nat, n: nat)
    requires j <= |c|
    ensures TokenAt(a + c, |a| + j, n) <==> TokenAt(c, j, n)
  {
    if j + n <= |c| {
      assert (a + c)[|a| + j..|a| + j + n] == c[j..j + n];
    }
  }

  /** Recognising a token inside the `c` part of `a + c` is recognising it in `c`. */
  lemma TokenLenAtShift(a: string, c: string, j: nat)
    requires j < |c|
    ensures TokenLenAt(a + c, |a| + j) == TokenLenAt(c, j)
  {
    TokenLenAtSpec(a + c, |a| + j);
    TokenLenAtSpec(c, j);
    var x, y := TokenLenAt(a + c, |a| + j), TokenLenAt(c, j);
    if x.Some? {
      TokenAtShift(a, c, j, x.value);
    } else if y.Some? {
      TokenAtShift(a, c, j, y.value);
    }
  }

  /** Searching `a + c` from inside `c` finds what searching `c` finds, moved. */
  lemma {:induction false} FindRefFromShiftIn(a: string, c: string, s: string, j: nat)
    requires s == a + c && j <= |c|
    ensures FindRefFrom(s, |a| + j) == Shift(FindRefFrom(c, j), |a|)
    decreases |c| - j
  {
    if j < |c| {
      TokenLenAtShift(a, c, j);
      FindRefFromShiftIn(a, c, s, j + 1);
    }
  }

  /** The tokens of `a + c` from inside `c` are the tokens of `c`. */
  lemma TokensFromShift(a: string, c: string, j: nat)
    requires j <= |c|
    ensures TokensFrom(a + c, |a| + j) == TokensFrom(c, j)
  {
    TokensFromShiftIn(a, c, a + c, j, |a| + j);
  }

  lemma {:induction false} TokensFromShiftIn(a: string, c: string, s: string, j: nat, i: nat)
    requires s == a + c && j <= |c| && i == |a| + j
    ensures TokensFrom(s, i) == TokensFrom(c, j)
    decreases |c| - j
  {
    FindRefFromShiftIn(a, c, s, j);
    var r := FindRefFrom(c, j);
    if r.Some? {
      var p, n := r.value.pos, r.value.len;
      var k := p + n;
      TokensFromShiftIn(a, c, s, k, k + |a|);
      TokensFromShiftStep(a, c, s, i, j, p, k, n);
    } else {
      TokensFromNil(s, i);
      TokensFromNil(c, j);
    }
  }

  /** The inductive step of `TokensFromShiftIn`: the first token found in `c`,
      moved by `|a|`, is the first found in `s`, and the rest agree. */
  lemma TokensFromShiftStep(a: string, c: string, s: string, i: nat, j: nat, p: nat, k: nat, n: nat)
    requires s == a + c && j <= |c| && i <= |s| && k == p + n
    requires FindRefFrom(c, j) == Some(Ref(p, n)) && FindRefFrom(s, i) == Some(Ref(p + |a|, n))
    requires TokensFrom(s, k + |a|) == TokensFrom(c, k)
    ensures TokensFrom(s, i) == TokensFrom(c, j)
  {
    SliceShift(a, c, s, p, k);
    TokensFromBothCons(s, i, p + |a|, k + |a|, c, j, p, k, n);
  }

  /** Two searches that find the same token and continue alike enumerate alike. */
  lemma TokensFromBothCons(s: string, i: nat, p: nat, k: nat, c: string, j: nat, q: nat, l: nat, n: nat)
    requires k == p + n && l == q + n
    requires i <= |s| && FindRefFrom(s, i) == Some(Ref(p, n))
    requires j <= |c| && FindRefFrom(c, j) == Some(Ref(q, n))
    requires s[p..k] == c[q..l] && TokensFrom(s, k) == TokensFrom(c, l)
    ensures TokensFrom(s, i) == TokensFrom(c, j)
  {
    var w := c[q..l];
    TokensFromCons(s, i, p, n, k, w);
    TokensFromCons(c, j, q, n, l, w);
  }

  lemma TokensFromNil(s: string, i: nat)
    requires i <= |s| && FindRefFrom(s, i) == None
    ensures TokensFrom(s, i) == []
  {
  }

  /** One step of the enumeration: the token found first, then the rest. */
  lemma TokensFromCons(s: string, i: nat, p: nat, n: nat, k: nat, w: string)
    requires k == p + n && i <= |s| && FindRefFrom(s, i) == Some(Ref(p, n)) && s[p..k] == w
    ensures TokensFrom(s, i) == [w] + TokensFrom(s, k)
  {
  }

  lemma SliceShift(a: string, c: string, s: string, p: nat, k: nat)
    requires s == a + c && p <= k <= |c|
    ensures s[p + |a|..k + |a|] == c[p..k]
  {
  }

  /** When no token starts in `[i, b)`, searching from `i` is searching from `b`. */
  lemma {:induction false} FindRefFromSkip(s: string, i: nat, b: nat)
    requires i <= b <= |s|
    requires forall q: nat, m: nat :: i <= q < b ==> !TokenAt(s, q, m)
    ensures FindRefFrom(s, i) == FindRefFrom(s, b)
    decreases b - i
  {
    if i < b {
      TokenLenAtSpec(s, i);
      FindRefFromSkip(s, i + 1, b);
    }
  }

  /** Two starting points that find the same first token enumerate the same tokens. */
  lemma TokensFromSame(s: string, i: nat, b: nat)
    requires i <= |s| && b <= |s| && FindRefFrom(s, i) == FindRefFrom(s, b)
    ensures TokensFrom(s, i) == TokensFrom(s, b)
  {
  }

  /** A token never starts inside another one: inside a token there is no `<`. */
  lemma TokensApart(s: string, p: nat, n: nat, q: nat, m: nat)
    requires TokenAt(s, p, n) && TokenAt(s, q, m) && p < q
    ensures p + n <= q
  {
    assert s[q] == '<' by {
      assert s[q..q + m][0] == s[q];
    }
    forall r | p < r < p + n
      ensures s[r] != '<'
    {
      assert s[r] == s[p..p + n][r - p];
    }
  }

  /** Every token starting at or after `i` is enumerated by `TokensFrom(s, i)`. */
  lemma {:induction false} TokensFromComplete(s: string, i: nat, p: nat, n: nat)
    requires i <= p && TokenAt(s, p, n)
    ensures s[p..p + n] in TokensFrom(s, i)
    decreases |s| - i
  {
    FindRefFromSpec(s, i);
    var r := FindRefFrom(s, i);
    assert r.Some?;
    var q, m := r.value.pos, r.value.len;
    var k := q + m;
    var u, rest := s[q..k], TokensFrom(s, k);
    TokensFromCons(s, i, q, m, k, u);
    if q == p {
      TokenLenAtSpec(s, p);
    } else {
      TokensApart(s, q, m, p, n);
      TokensFromComplete(s, k, p, n);
      InTail(s[p..p + n], u, rest, TokensFrom(s, i));
    }
  }

  lemma InTail(w: string, u: string, rest: seq<string>, ts: seq<string>)
    requires ts == [u] + rest && w in rest
    ensures w in ts
  {
    assert ts[1..] == rest;
  }

  /** Everything `TokensFrom(s, i)` enumerates is a token of `s` starting at or
      after `i`. */
  lemma {:induction false} TokensFromSound(s: string, i: nat, w: string)
    requires i <= |s| && w in TokensFrom(s, i)
    ensures exists p: nat :: i <= p && TokenAt(s, p, |w|) && s[p..p + |w|] == w
    decreases |s| - i
  {
    FindRefFromSpec(s, i);
    var r := FindRefFrom(s, i);
    if r.None? {
      TokensFromNil(s, i);
    } else {
      var q, m := r.value.pos, r.value.len;
      var u := s[q..q + m];
      TokensFromCons(s, i, q, m, q + m, u);
      if w == u {
        assert TokenAt(s, q, |w|) && s[q..q + |w|] == w;
      } else {
        TokensFromSound(s, q + m, w);
      }
    }
  }
}

=== FILE: stability.dfy ===
/** Why the anchor indices recorded by `Lexer::insert` (PythonLexer/lexer.cpp,
    lines 42-81) stay valid: the search always restarts at index 0 and takes the
    leftmost token, so as long as no substitution makes a token appear to the left
    of the end of the text it inserted, everything up to that end is never rewritten
    again, and a count taken there is also the count in the final regex. */
module Stability {

  import opened Wrappers
  import opened Records
  import opened Reference
  import opened Groups
  import opened Composition

  /** The leftmost token of `s`, if any, starts at or after `e`. */
  predicate NoTokenBefore(s: string, e: nat)
  {
    match FindRef(s)
    case None => true
    case Some(ref) => ref.pos >= e
  }

  /** Along the run of `Expand`, no substitution leaves a token starting before the
      end of the text it inserted. */
  predicate NoNewToken(lexems: map<string, Lexem>, s: string, fuel: nat)
    decreases fuel
  {
    match Step(lexems, s)
    case Rewrote(next, at, width, _) =>
      fuel > 0 ==> NoTokenBefore(next, at + width) && NoNewToken(lexems, next, fuel - 1)
    case _ => true
  }

  /** Where a substitution happened and how long the inserted text was. */
  datatype Site = Site(at: nat, width: nat)

  /** The substitution sites of the run of `Expand`, in order. */
  function Sites(lexems: map<string, Lexem>, s: string, fuel: nat): seq<Site>
    decreases fuel
  {
    match Step(lexems, s)
    case Rewrote(next, at, width, _) =>
      if fuel == 0 then [] else [Site(at, width)] + Sites(lexems, next, fuel - 1)
    case _ => []
  }

  /** One turn of the loop: a substitution followed by the rest of the run. */
  lemma ExpandUnfold(lexems: map<string, Lexem>, s: string, acc: seq<Anchor>, fuel: nat)
    requires Step(lexems, s).Rewrote? && fuel > 0
    ensures Expand(lexems, s, acc, fuel) ==
      Expand(lexems, Step(lexems, s).next, acc + [Step(lexems, s).anchor], fuel - 1)
    ensures Sites(lexems, s, fuel) ==
      [Site(Step(lexems, s).at, Step(lexems, s).width)] + Sites(lexems, Step(lexems, s).next, fuel - 1)
  {
  }

  /** The `Expand` half of `ExpandUnfold`. */
  lemma ExpandTurn(lexems: map<string, Lexem>, s: string, acc: seq<Anchor>, fuel: nat)
    requires Step(lexems, s).Rewrote? && fuel > 0
    ensures Expand(lexems, s, acc, fuel) ==
      Expand(lexems, Step(lexems, s).next, acc + [Step(lexems, s).anchor], fuel - 1)
  {
  }

  /** A run free of new tokens: its first substitution makes none, nor does the rest. */
  lemma NoNewTokenUnfold(lexems: map<string, Lexem>, s: string, fuel: nat)
    requires Step(lexems, s).Rewrote? && fuel > 0 && NoNewToken(lexems, s, fuel)
    ensures NoTokenBefore(Step(lexems, s).next, Step(lexems, s).at + Step(lexems, s).width)
    ensures NoNewToken(lexems, Step(lexems, s).next, fuel - 1)
  {
  }

  /** When the loop does not substitute, a successful run is the string itself. */
  lemma ExpandStops(lexems: map<string, Lexem>, s: string, acc: seq<Anchor>, fuel: nat)
    requires !Step(lexems, s).Rewrote? && Expand(lexems, s, acc, fuel).Expanded?
    ensures Step(lexems, s).NoRef? && Expand(lexems, s, acc, fuel) == Expanded(s, acc)
    ensures Sites(lexems, s, fuel) == []
  {
  }

  /** A substitution keeps the text left of its site. */
  lemma ReplaceKeepsPrefix(s: string, at: nat, n: nat, t: string, e: nat)
    requires e <= at && at + n <= |s|
    ensures (s[..at] + t + s[at + n..])[..e] == s[..e]
  {
  }

  /** The prefix below `e` survives the rest of the run unchanged. */
  lemma {:induction false} PrefixKept(lexems: map<string, Lexem>, s: string, acc: seq<Anchor>, fuel: nat, e: nat)
    requires e <= |s|
    requires NoTokenBefore(s, e)
    requires NoNewToken(lexems, s, fuel)
    requires Expand(lexems, s, acc, fuel).Expanded?
    ensures var r := Expand(lexems, s, acc, fuel).regex; e <= |r| && r[..e] == s[..e]
    decreases fuel
  {
    var st := Step(lexems, s);
    if st.Rewrote? {
      ExpandUnfold(lexems, s, acc, fuel);
      NoNewTokenUnfold(lexems, s, fuel);
      StepKeepsPrefix(lexems, s, e);
      NoTokenBeforeWeaken(st.next, st.at + st.width, e);
      PrefixKept(lexems, st.next, acc + [st.anchor], fuel - 1, e);
    } else {
      ExpandStops(lexems, s, acc, fuel);
    }
  }

  /** A substitution happens at or after any bound on the leftmost token, and
      keeps everything below that bound. */
  lemma StepKeepsPrefix(lexems: map<string, Lexem>, s: string, e: nat)
    requires Step(lexems, s).Rewrote? && e <= |s| && NoTokenBefore(s, e)
    ensures e <= Step(lexems, s).at + Step(lexems, s).width && Step(lexems, s).next[..e] == s[..e]
  {
    var ref := FindRef(s).value;
    var t := lexems[s[ref.pos..ref.pos + ref.len]].regex;
    ReplaceKeepsPrefix(s, ref.pos, ref.len, t, e);
  }

  /** A bound on where the leftmost token starts also holds for any smaller bound. */
  lemma NoTokenBeforeWeaken(s: string, e: nat, e': nat)
    requires NoTokenBefore(s, e) && e' <= e
    ensures NoTokenBefore(s, e')
  {
  }

  /** What a substitution site still says about the final regex `r`: the text at
      the site is the referenced pattern's regex and, when that text is non-empty,
      the anchor index is the count of unescaped `(` up to the site in `r`. */
  ghost predicate SiteHolds(lexems: map<string, Lexem>, r: string, a: Anchor, site: Site)
  {
    && site.at + site.width <= |r|
    && a.name in lexems
    && r[site.at..site.at + site.width] == lexems[a.name].regex
    && (site.width > 0 ==> a.pos == Curls(r, site.at))
  }

  /** Every site of `sites` holds for the anchor at the same place from `from` on. */
  ghost predicate AllSitesHold(lexems: map<string, Lexem>, r: string, anchors: seq<Anchor>, from: nat, sites: seq<Site>)
  {
    && |anchors| == from + |sites|
    && forall k :: 0 <= k < |sites| ==> SiteHolds(lexems, r, anchors[from + k], sites[k])
  }

  /** The induction behind `AnchorsValid`. */
  lemma {:induction false} AnchorsValidFrom(lexems: map<string, Lexem>, s: string, acc: seq<Anchor>, fuel: nat)
    requires NoNewToken(lexems, s, fuel)
    requires Expand(lexems, s, acc, fuel).Expanded?
    ensures var r := Expand(lexems, s, acc, fuel);
      AllSitesHold(lexems, r.regex, r.anchors, |acc|, Sites(lexems, s, fuel))
    decreases fuel
  {
    var st := Step(lexems, s);
    if st.Rewrote? {
      ExpandUnfold(lexems, s, acc, fuel);
      NoNewTokenUnfold(lexems, s, fuel);
      AnchorsValidFrom(lexems, st.next, acc + [st.anchor], fuel - 1);
      FirstSiteHolds(lexems, s, acc, fuel);
      var r := Expand(lexems, s, acc, fuel);
      SitesCons(lexems, r.regex, r.anchors, |acc|, Site(st.at, st.width), Sites(lexems, st.next, fuel - 1));
    } else {
      ExpandStops(lexems, s, acc, fuel);
    }
  }

  /** Sites that hold for the first anchor and, shifted by one, for the rest hold
      for all of them. */
  lemma SitesCons(lexems: map<string, Lexem>, r: string, anchors: seq<Anchor>, from: nat, first: Site, rest: seq<Site>)
    requires from < |anchors| && SiteHolds(lexems, r, anchors[from], first)
    requires AllSitesHold(lexems, r, anchors, from + 1, rest)
    ensures AllSitesHold(lexems, r, anchors, from, [first] + rest)
  {
    forall k | 0 <= k < |[first] + rest|
      ensures SiteHolds(lexems, r, anchors[from + k], ([first] + rest)[k])
    {
      if k > 0 {
        assert anchors[from + k] == anchors[from + 1 + (k - 1)];
      }
    }
  }

  /** The anchors recorded by a run free of new tokens describe its final regex:
      one anchor per substitution, and at every site the final regex still holds
      the referenced pattern's regex, with the recorded index equal to the count
      of unescaped `(` up to the site whenever that regex is non-empty. */
  lemma AnchorsValid(lexems: map<string, Lexem>, s: string, fuel: nat)
    requires NoNewToken(lexems, s, fuel)
    requires Expand(lexems, s, [], fuel).Expanded?
    ensures var r := Expand(lexems, s, [], fuel);
      var sites := Sites(lexems, s, fuel);
      && |r.anchors| == |sites|
      && forall k :: 0 <= k < |sites| ==>
           && sites[k].at + sites[k].width <= |r.regex|
           && r.anchors[k].name in lexems
           && r.regex[sites[k].at..sites[k].at + sites[k].width] == lexems[r.anchors[k].name].regex
           && (sites[k].width > 0 ==> r.anchors[k].pos == Curls(r.regex, sites[k].at))
  {
    AnchorsValidFrom(lexems, s, [], fuel);
    var r := Expand(lexems, s, [], fuel);
    var sites := Sites(lexems, s, fuel);
    forall k | 0 <= k < |sites|
      ensures SiteHolds(lexems, r.regex, r.anchors[k], sites[k])
    {
      assert r.anchors[k] == r.anchors[0 + k];
    }
  }

  /** The site of the first substitution of a run holds in its final regex. */
  lemma FirstSiteHolds(lexems: map<string, Lexem>, s: string, acc: seq<Anchor>, fuel: nat)
    requires NoNewToken(lexems, s, fuel)
    requires Expand(lexems, s, acc, fuel).Expanded?
    requires Step(lexems, s).Rewrote?
    ensures var r := Expand(lexems, s, acc, fuel);
      SiteHolds(lexems, r.regex, r.anchors[|acc|], Site(Step(lexems, s).at, Step(lexems, s).width))
  {
    var st := Step(lexems, s);
    StepSite(lexems, s);
    var acc' := acc + [st.anchor];
    ExpandUnfold(lexems, s, acc, fuel);
    NoNewTokenUnfold(lexems, s, fuel);
    var next, e, f := st.next, st.at + st.width, fuel - 1;
    PrefixKept(lexems, next, acc', f, e);
    var r := Expand(lexems, next, acc', f);
    assert r.anchors[|acc|] == acc'[|acc|] == st.anchor;
    SiteFromPrefix(lexems, next, r.regex, st.anchor, st.at, st.width);
  }

  /** A site of `next` holds in any `r` that keeps the prefix up to its end. */
  lemma SiteFromPrefix(lexems: map<string, Lexem>, next: string, r: string, a: Anchor, at: nat, width: nat)
    requires at + width <= |next| && a.name in lexems
    requires next[at..at + width] == lexems[a.name].regex && a.pos == Curls(next, at)
    requires at + width <= |r| && r[..at + width] == next[..at + width]
    ensures SiteHolds(lexems, r, a, Site(at, width))
  {
    SiteSurvives(next, r, at, width);
  }

  /** The facts about a substitution site that survive into the final regex. */
  lemma StepSite(lexems: map<string, Lexem>, s: string)
    ensures var st := Step(lexems, s);
      st.Rewrote? ==>
        && st.at + st.width <= |st.next|
        && st.anchor.name in lexems
        && st.next[st.at..st.at + st.width] == lexems[st.anchor.name].regex
        && st.anchor.pos == Curls(st.next, st.at)
  {
    var st := Step(lexems, s);
    if st.Rewrote? {
      var ref := FindRef(s).value;
      var t := lexems[st.anchor.name].regex;
      assert st.next == s[..ref.pos] + t + s[ref.pos + ref.len..];
      assert st.next[st.at..st.at + st.width] == t;
    }
  }

  /** If the final string keeps the prefix up to the end of a site, the site's text
      and the count up to it are the same in both. */
  lemma SiteSurvives(next: string, r: string, at: nat, width: nat)
    requires at + width <= |next| && at + width <= |r| && r[..at + width] == next[..at + width]
    ensures r[at..at + width] == next[at..at + width]
    ensures width > 0 ==> Curls(r, at) == Curls(next, at)
  {
    assert r[at..at + width] == r[..at + width][at..];
    assert next[at..at + width] == next[..at + width][at..];
    if width > 0 {
      assert r[..at + 1] == r[..at + width][..at + 1];
      assert next[..at + 1] == next[..at + width][..at + 1];
      CountOpenPrefix(r, next, at + 1);
    }
  }

  /** A regex whose first and last characters cannot be part of a token, as with
      one wrapped in a group `(...)` or written as a class `[...]`. */
  predicate Bracketed(t: string)
  {
    |t| > 0 && !InTokenAlphabet(t[0]) && !InTokenAlphabet(t[|t| - 1])
  }

  /** Every stored regex is bracketed. */
  predicate AllBracketed(lexems: map<string, Lexem>)
  {
    forall name :: name in lexems ==> Bracketed(lexems[name].regex)
  }

  /** Every stored regex is bracketed and free of tokens. */
  ghost predicate Delimited(lexems: map<string, Lexem>)
  {
    AllBracketed(lexems) && forall name :: name in lexems ==> !ContainsToken(lexems[name].regex)
  }

  /** Replacing the leftmost token by a bracketed, token-free text cannot make a
      token appear before the end of that text: one straddling a boundary would
      contain a bracket character, one inside would be a token of the inserted
      text, and one wholly to the left would have been found first. */
  lemma ReplaceKeepsTokensRight(s: string, at: nat, n: nat, t: string)
    requires FindRef(s) == Some(Ref(at, n))
    requires Bracketed(t) && !ContainsToken(t)
    ensures NoTokenBefore(s[..at] + t + s[at + n..], at + |t|)
  {
    var next := s[..at] + t + s[at + n..];
    match FindRef(next)
    case None =>
    case Some(ref) =>
      var q, m := ref.pos, ref.len;
      if q < at + |t| {
        if q + m <= at {
          LeftOfSite(s, at, n, t, q, m);
        } else if q < at {
          TokenChars(next, q, m, at);
        } else if q + m <= at + |t| {
          InsideSite(s, at, n, t, q, m);
        } else {
          TokenChars(next, q, m, at + |t| - 1);
        }
      }
  }

  /** A token of the rewritten string wholly left of the site was a token of `s`. */
  lemma LeftOfSite(s: string, at: nat, n: nat, t: string, q: nat, m: nat)
    requires at + n <= |s| && q + m <= at
    requires TokenAt(s[..at] + t + s[at + n..], q, m)
    ensures TokenAt(s, q, m)
  {
    assert (s[..at] + t + s[at + n..])[q..q + m] == s[q..q + m];
  }

  /** A token of the rewritten string wholly inside the site is a token of `t`. */
  lemma InsideSite(s: string, at: nat, n: nat, t: string, q: nat, m: nat)
    requires at + n <= |s| && at <= q && q + m <= at + |t|
    requires TokenAt(s[..at] + t + s[at + n..], q, m)
    ensures TokenAt(t, q - at, m)
  {
    assert (s[..at] + t + s[at + n..])[q..q + m] == t[q - at..q - at + m];
  }

  /** One substitution over a registry of bracketed, token-free regexes never lets
      a token start before the end of the inserted text. */
  lemma StepKeepsTokensRight(lexems: map<string, Lexem>, s: string)
    requires Delimited(lexems)
    ensures Step(lexems, s).Rewrote? ==> NoTokenBefore(Step(lexems, s).next, Step(lexems, s).at + Step(lexems, s).width)
  {
    if Step(lexems, s).Rewrote? {
      var ref := FindRef(s).value;
      var name := s[ref.pos..ref.pos + ref.len];
      StepFound(lexems, s);
      ReplaceKeepsTokensRight(s, ref.pos, ref.len, lexems[name].regex);
    }
  }

  /** A registry of bracketed, token-free regexes never lets a new token form. */
  lemma {:induction false} DelimitedNoNewToken(lexems: map<string, Lexem>, s: string, fuel: nat)
    requires Delimited(lexems)
    ensures NoNewToken(lexems, s, fuel)
    decreases fuel
  {
    StepKeepsTokensRight(lexems, s);
    match Step(lexems, s)
    case Rewrote(next, _, _, _) =>
      if fuel > 0 {
        DelimitedNoNewToken(lexems, next, fuel - 1);
      }
    case _ =>
  }

  /** On a registry of bracketed, token-free regexes every inserted regex is
      non-empty, so every recorded index is the count of unescaped `(` in the
      final regex up to the site of its substitution. */
  lemma DelimitedAnchorsExact(lexems: map<string, Lexem>, s: string, fuel: nat)
    requires Delimited(lexems)
    requires Expand(lexems, s, [], fuel).Expanded?
    ensures var r := Expand(lexems, s, [], fuel);
      var sites := Sites(lexems, s, fuel);
      && |r.anchors| == |sites|
      && forall k :: 0 <= k < |sites| ==>
           sites[k].at < |r.regex| && r.anchors[k].pos == Curls(r.regex, sites[k].at)
  {
    DelimitedNoNewToken(lexems, s, fuel);
    AnchorsValidFrom(lexems, s, [], fuel);
    var r := Expand(lexems, s, [], fuel);
    SitesExact(lexems, r.regex, r.anchors, Sites(lexems, s, fuel));
  }

  /** Sites that hold bracketed regexes all have exact indices. */
  lemma SitesExact(lexems: map<string, Lexem>, regex: string, anchors: seq<Anchor>, sites: seq<Site>)
    requires AllBracketed(lexems) && AllSitesHold(lexems, regex, anchors, 0, sites)
    ensures |anchors| == |sites|
    ensures forall k :: 0 <= k < |sites| ==>
      sites[k].at < |regex| && anchors[k].pos == Curls(regex, sites[k].at)
  {
    forall k | 0 <= k < |sites|
      ensures sites[k].at < |regex| && anchors[k].pos == Curls(regex, sites[k].at)
    {
      assert SiteHolds(lexems, regex, anchors[0 + k], sites[k]);
      SiteExact(lexems, regex, anchors[k], sites[k]);
    }
  }

  /** A site holding a bracketed regex is non-empty, so its index is exact. */
  lemma SiteExact(lexems: map<string, Lexem>, regex: string, a: Anchor, site: Site)
    requires AllBracketed(lexems) && SiteHolds(lexems, regex, a, site)
    ensures site.at < |regex| && a.pos == Curls(regex, site.at)
  {
    assert Bracketed(lexems[a.name].regex);
  }

  /** On a registry of bracketed, token-free regexes, `insert` with as much fuel as
      the spec has characters always returns, and its run makes no new token, so
      `AnchorsValid` describes the anchors it stores. */
  lemma InsertFinishes(lx: Lexer, name: string, spec: string)
    requires Delimited(lx.lexems)
    ensures Insert(lx, name, spec, |spec|).Returned?
    ensures NoNewToken(lx.lexems, spec, |spec|)
  {
    ExpandFollowsTokens(lx.lexems, spec, 0, [], |spec|);
    DelimitedNoNewToken(lx.lexems, spec, |spec|);
  }

  /** When no token starts before `b`, the leftmost token of `s` is the first one
      found by a search from `b`. */
  lemma SearchFrom(s: string, b: nat)
    requires b <= |s| && NoTokenBefore(s, b)
    ensures FindRef(s) == FindRefFrom(s, b)
  {
    FindRefFromSkip(s, 0, b);
  }

  /** What one turn of the loop does once the leftmost token is known. */
  lemma StepFound(lexems: map<string, Lexem>, s: string)
    requires FindRef(s).Some?
    ensures var ref := FindRef(s).value;
      var name := s[ref.pos..ref.pos + ref.len];
      var st := Step(lexems, s);
      && (name !in lexems ==> st == Missing(name))
      && (name in lexems ==>
            && st.Rewrote? && st.anchor.name == name && st.at == ref.pos
            && st.width == |lexems[name].regex|
            && st.next == s[..ref.pos] + lexems[name].regex + s[ref.pos + ref.len..])
  {
  }

  /** Replacing the token at `at` leaves the tokens after it as they were. */
  lemma TokensAfterReplace(s: string, at: nat, n: nat, t: string)
    requires at + n <= |s|
    ensures TokensFrom(s[..at] + t + s[at + n..], at + |t|) == TokensFrom(s, at + n)
  {
    var tail, k := s[at + n..], at + n;
    TokensFromSuffix(s[..at] + t, tail, s[..at] + t + tail, at + |t|);
    assert s[..k] + tail == s;
    TokensFromSuffix(s[..k], tail, s, k);
  }

  /** The tokens of `a + c` from the end of `a` are those of `c`. */
  lemma TokensFromSuffix(a: string, c: string, s: string, i: nat)
    requires s == a + c && i == |a|
    ensures TokensFrom(s, i) == TokensFrom(c, 0)
  {
    TokensFromShiftIn(a, c, s, 0, i);
  }

  /** `r`, a run started with anchors `acc`, substituted exactly the names `ts`:
      it succeeded iff all of them are registered, and then it recorded one anchor
      per name, in order, after `acc`; otherwise it reported an unregistered name. */
  ghost predicate Follows(lexems: map<string, Lexem>, r: Expansion, acc: seq<Anchor>, ts: seq<string>)
  {
    && (r.Expanded? || r.Undefined?)
    && (r.Expanded? <==> forall k :: 0 <= k < |ts| ==> ts[k] in lexems)
    && (r.Expanded? ==> |acc| <= |r.anchors| && r.anchors[..|acc|] == acc && Names(r.anchors[|acc|..]) == ts)
  }

  /** On a registry of bracketed, token-free regexes, the loop from a string with no
      token before `b` substitutes exactly the tokens from `b` on, in order, and as
      many turns as there are tokens always suffice. */
  lemma {:induction false} ExpandFollowsTokens(lexems: map<string, Lexem>, s: string, b: nat, acc: seq<Anchor>, fuel: nat)
    requires Delimited(lexems) && b <= |s| && NoTokenBefore(s, b)
    requires fuel >= |TokensFrom(s, b)|
    ensures Follows(lexems, Expand(lexems, s, acc, fuel), acc, TokensFrom(s, b))
    decreases fuel
  {
    if Step(lexems, s).Rewrote? {
      var next, b', acc' := FollowTurn(lexems, s, b, acc, fuel);
      ExpandFollowsTokens(lexems, next, b', acc', fuel - 1);
    } else {
      FollowHalt(lexems, s, b, acc, fuel);
    }
  }

  /** The last turn of `ExpandFollowsTokens`: nothing substituted. */
  lemma FollowHalt(lexems: map<string, Lexem>, s: string, b: nat, acc: seq<Anchor>, fuel: nat)
    requires b <= |s| && NoTokenBefore(s, b) && !Step(lexems, s).Rewrote?
    ensures Follows(lexems, Expand(lexems, s, acc, fuel), acc, TokensFrom(s, b))
  {
    FollowStop(lexems, s, b);
    ExpandHalts(lexems, s, acc, fuel);
    if Step(lexems, s).NoRef? {
      assert Names([]) == [];
    }
  }

  /** One substituting turn of `ExpandFollowsTokens`: the rest of the run starts
      from `next` with boundary `b'` and anchors `acc'`, and following the remaining
      tokens from there means following all of them from `s`. */
  lemma FollowTurn(lexems: map<string, Lexem>, s: string, b: nat, acc: seq<Anchor>, fuel: nat)
      returns (next: string, b': nat, acc': seq<Anchor>)
    requires Delimited(lexems) && b <= |s| && NoTokenBefore(s, b)
    requires fuel >= |TokensFrom(s, b)| && Step(lexems, s).Rewrote?
    ensures fuel > 0 && b' <= |next| && NoTokenBefore(next, b') && fuel - 1 >= |TokensFrom(next, b')|
    ensures Follows(lexems, Expand(lexems, next, acc', fuel - 1), acc', TokensFrom(next, b')) ==>
      Follows(lexems, Expand(lexems, s, acc, fuel), acc, TokensFrom(s, b))
  {
    var st, ts := Step(lexems, s), TokensFrom(s, b);
    FollowStop(lexems, s, b);
    FollowRewrote(lexems, s, b);
    next, b', acc' := st.next, st.at + st.width, acc + [st.anchor];
    var rest := TokensFrom(next, b');
    assert rest == ts[1..];
    assert |rest| == |ts| - 1;
    var r := Expand(lexems, next, acc', fuel - 1);
    if Follows(lexems, r, acc', rest) {
      AnchorsCons(lexems, r, acc, st.anchor, ts, rest);
      ExpandTurn(lexems, s, acc, fuel);
    }
  }

  /** A turn that does not substitute ends the loop. */
  lemma ExpandHalts(lexems: map<string, Lexem>, s: string, acc: seq<Anchor>, fuel: nat)
    requires !Step(lexems, s).Rewrote?
    ensures Step(lexems, s).NoRef? ==> Expand(lexems, s, acc, fuel) == Expanded(s, acc)
    ensures Step(lexems, s).Missing? ==> Expand(lexems, s, acc, fuel) == Undefined(Step(lexems, s).name)
  {
  }

  /** When the loop stops at `s`: it finds no token iff none is left from `b` on,
      and an unregistered name it reports is the first of them. */
  lemma FollowStop(lexems: map<string, Lexem>, s: string, b: nat)
    requires b <= |s| && NoTokenBefore(s, b)
    ensures var ts := TokensFrom(s, b);
      var st := Step(lexems, s);
      && (ts == [] <==> st.NoRef?)
      && (st.Missing? ==> ts != [] && ts[0] == st.name)
  {
    SearchFrom(s, b);
    var found := FindRef(s);
    if found.None? {
      TokensFromNil(s, b);
    } else {
      var at, n := found.value.pos, found.value.len;
      StepFound(lexems, s);
      TokensFromCons(s, b, at, n, at + n, s[at..at + n]);
    }
  }

  /** When the loop substitutes at `s`, the name it substitutes is the first token
      from `b` on, and the rest of the run sees the remaining ones. */
  lemma FollowRewrote(lexems: map<string, Lexem>, s: string, b: nat)
    requires Delimited(lexems) && b <= |s| && NoTokenBefore(s, b)
    requires Step(lexems, s).Rewrote?
    ensures var ts := TokensFrom(s, b);
      var st := Step(lexems, s);
      && ts != [] && st.anchor.name == ts[0] && ts[0] in lexems
      && st.at + st.width <= |st.next| && NoTokenBefore(st.next, st.at + st.width)
      && TokensFrom(st.next, st.at + st.width) == ts[1..]
  {
    RewroteFirstToken(lexems, s, b);
    StepKeepsTokensRight(lexems, s);
  }

  /** The token half of `FollowRewrote`, which holds for every registry. */
  lemma RewroteFirstToken(lexems: map<string, Lexem>, s: string, b: nat)
    requires b <= |s| && NoTokenBefore(s, b) && Step(lexems, s).Rewrote?
    ensures var ts := TokensFrom(s, b);
      var st := Step(lexems, s);
      && ts != [] && st.anchor.name == ts[0] && ts[0] in lexems
      && st.at + st.width <= |st.next|
      && TokensFrom(st.next, st.at + st.width) == ts[1..]
  {
    SearchFrom(s, b);
    var at, n := FindRef(s).value.pos, FindRef(s).value.len;
    var name := s[at..at + n];
    StepFound(lexems, s);
    TokensFromCons(s, b, at, n, at + n, name);
    ConsTail(name, TokensFrom(s, at + n), TokensFrom(s, b));
    TokensAfterReplace(s, at, n, lexems[name].regex);
  }

  lemma ConsTail(w: string, rest: seq<string>, ts: seq<string>)
    requires ts == [w] + rest
    ensures ts != [] && ts[0] == w && ts[1..] == rest
  {
  }

  /** A run that first substituted `a`, named `ts[0]`, and then followed `rest`,
      the remaining tokens, followed `ts`. */
  lemma AnchorsCons(lexems: map<string, Lexem>, r: Expansion, acc: seq<Anchor>, a: Anchor, ts: seq<string>, rest: seq<string>)
    requires ts != [] && a.name == ts[0] && ts[0] in lexems && rest == ts[1..]
    requires Follows(lexems, r, acc + [a], rest)
    ensures Follows(lexems, r, acc, ts)
  {
    if r.Expanded? {
      assert r.anchors[..|acc|] == (acc + [a])[..|acc|];
      assert r.anchors[|acc|] == (acc + [a])[|acc|];
      assert Names(r.anchors[|acc|..]) == [a.name] + Names(r.anchors[|acc| + 1..]);
    }
    if forall k :: 0 <= k < |rest| ==> rest[k] in lexems {
      forall k | 0 <= k < |ts|
        ensures ts[k] in lexems
      {
        if k > 0 {
          assert ts[k] == rest[k - 1];
        }
      }
    }
  }

  /** `insert` on a registry of bracketed, token-free regexes, with as much fuel as
      the spec has characters: it always returns, it returns true iff every
      reference token of the spec names a registered pattern, and then the stored
      anchors are the spec's tokens in left-to-right order, one per occurrence. */
  lemma InsertFollowsTokens(lx: Lexer, name: string, spec: string)
    requires Delimited(lx.lexems)
    ensures var r := Insert(lx, name, spec, |spec|);
      var ts := TokensFrom(spec, 0);
      && r.Returned?
      && (r.ok <==> forall k :: 0 <= k < |ts| ==> ts[k] in lx.lexems)
      && (r.ok ==> Names(r.lexer.lexems[name].anchors) == ts)
      && (!r.ok ==> r.lexer == lx)
  {
    ExpandFollowsTokens(lx.lexems, spec, 0, [], |spec|);
    var e := Expand(lx.lexems, spec, [], |spec|);
    if e.Expanded? {
      assert e.anchors[0..] == e.anchors;
    }
  }

  /** `TokensAfterReplace`, with the rewritten text named. */
  lemma ReplacedTokens(s: string, at: nat, n: nat, t: string, next: string)
    requires at + n <= |s| && next == s[..at] + t + s[at + n..]
    ensures at + |t| <= |next|
    ensures TokensFrom(next, at + |t|) == TokensFrom(s, at + n)
  {
    TokensAfterReplace(s, at, n, t);
  }

  /** No token starts after the start of another and before its end. */
  lemma NoTokenInside(s: string, at: nat, n: nat, i: nat)
    requires TokenAt(s, at, n) && at < i
    ensures forall q: nat, m: nat :: i <= q < at + n ==> !TokenAt(s, q, m)
  {
    forall q: nat, m: nat | i <= q < at + n
      ensures !TokenAt(s, q, m)
    {
      if TokenAt(s, q, m) {
        TokensApart(s, at, n, q, m);
      }
    }
  }

  /** The leftmost token of `s`, at `at`, replaced by `t`, with `i` strictly inside
      it: no token starts there, so the tokens from `i` on are those after `t`. */
  lemma TurnCovers(s: string, i: nat, at: nat, n: nat, t: string, next: string)
    requires FindRef(s) == Some(Ref(at, n)) && at < i < at + n
    requires next == s[..at] + t + s[at + n..]
    ensures TokensFrom(s, i) == TokensFrom(next, at + |t|)
  {
    var k := at + n;
    NoTokenInside(s, at, n, i);
    FindRefFromSkip(s, i, k);
    ReplacedTokens(s, at, n, t, next);
    TokensFromSame(s, i, k);
  }

  /** A replacement that ends at or before `i` moves the tokens from `i` on by
      the change in length and changes none of them. */
  lemma TurnLeft(s: string, i: nat, at: nat, n: nat, t: string, next: string)
    requires at + n <= i <= |s|
    requires next == s[..at] + t + s[at + n..]
    ensures i - n + |t| <= |next|
    ensures TokensFrom(s, i) == TokensFrom(next, i - n + |t|)
  {
    var c, j := s[at + n..], i - (at + n);
    assert s[..at + n] + c == s;
    TokensFromShiftIn(s[..at + n], c, s, j, i);
    TokensFromShiftIn(s[..at] + t, c, next, j, i - n + |t|);
  }

  /** One turn of the loop whose site starts before `i`: it consumes none of the
      tokens from `i` on, but shifts them or, when the site covers `i`, leaves them
      just past the pasted regex, at `i2` of the rewritten text. */
  lemma TurnLeftOf(lexems: map<string, Lexem>, s: string, i: nat) returns (i2: nat)
    requires i <= |s| && Step(lexems, s).Rewrote? && Step(lexems, s).at < i
    ensures i2 <= |Step(lexems, s).next|
    ensures TokensFrom(s, i) == TokensFrom(Step(lexems, s).next, i2)
  {
    var ref := FindRef(s).value;
    var at, n := ref.pos, ref.len;
    StepFound(lexems, s);
    var t, next := lexems[s[at..at + n]].regex, Step(lexems, s).next;
    if i < at + n {
      TurnCovers(s, i, at, n, t, next);
      i2 := at + |t|;
    } else {
      TurnLeft(s, i, at, n, t, next);
      i2 := i - n + |t|;
    }
  }

  /** Every name in `ts` is a key of `lexems`. */
  predicate Registered(lexems: map<string, Lexem>, ts: seq<string>)
  {
    forall k :: 0 <= k < |ts| ==> ts[k] in lexems
  }

  /** A registered first name and registered rest make a registered list. */
  lemma RegisteredCons(lexems: map<string, Lexem>, ts: seq<string>)
    requires ts != [] && ts[0] in lexems && Registered(lexems, ts[1..])
    ensures Registered(lexems, ts)
  {
  }

  /** If the run of the loop from `s` ends with a regex, every token of `s` from
      `i` on is a key. */
  predicate RegisteredIfExpanded(lexems: map<string, Lexem>, s: string, acc: seq<Anchor>, fuel: nat, i: nat)
    requires i <= |s|
  {
    Expand(lexems, s, acc, fuel).Expanded? ==> Registered(lexems, TokensFrom(s, i))
  }

  /** Whatever the registry, a run of the loop that ends with a regex met only
      registered names: every token of the text from `i` on is a key. A token of
      the spec is never swallowed by an earlier substitution, since no token
      starts inside another and the text after a site is kept. */
  lemma {:induction false} ExpandedAllRegistered(lexems: map<string, Lexem>, s: string, acc: seq<Anchor>, fuel: nat, i: nat)
    requires i <= |s|
    ensures RegisteredIfExpanded(lexems, s, acc, fuel, i)
    decreases fuel
  {
    var done, next, i2, acc2 := RegisteredTurn(lexems, s, acc, fuel, i);
    if !done {
      ExpandedAllRegistered(lexems, next, acc2, fuel - 1, i2);
    }
  }

  /** One turn of `ExpandedAllRegistered`. Either the run stops here (`done`) and
      the claim holds outright, or it substitutes and goes on from `next` at index
      `i2` with anchors `acc2`, and the claim from there gives the claim here. */
  lemma RegisteredTurn(lexems: map<string, Lexem>, s: string, acc: seq<Anchor>, fuel: nat, i: nat)
      returns (done: bool, next: string, i2: nat, acc2: seq<Anchor>)
    requires i <= |s|
    ensures done ==> RegisteredIfExpanded(lexems, s, acc, fuel, i)
    ensures !done ==> fuel > 0 && i2 <= |next|
    ensures !done ==> RegisteredIfExpanded(lexems, next, acc2, fuel - 1, i2) ==> RegisteredIfExpanded(lexems, s, acc, fuel, i)
  {
    done := !Step(lexems, s).Rewrote? || fuel == 0;
    next, i2, acc2 := s, i, acc;
    if !Step(lexems, s).Rewrote? {
      if Expand(lexems, s, acc, fuel).Expanded? {
        ExpandStops(lexems, s, acc, fuel);
        FindRefFromSpec(s, i);
        TokensFromNil(s, i);
      }
    } else if fuel > 0 {
      ExpandTurn(lexems, s, acc, fuel);
      next, acc2 := Step(lexems, s).next, acc + [Step(lexems, s).anchor];
      i2 := TurnRegistered(lexems, s, i);
    }
  }

  /** The token half of `RegisteredTurn`, which does not involve the run. A site
      at or after `i` consumes the first token from `i` on (`TurnFirst`); a site
      before `i` consumes none of them (`TurnLeftOf`). */
  lemma TurnRegistered(lexems: map<string, Lexem>, s: string, i: nat) returns (i2: nat)
    requires i <= |s| && Step(lexems, s).Rewrote?
    ensures i2 <= |Step(lexems, s).next|
    ensures Registered(lexems, TokensFrom(Step(lexems, s).next, i2)) ==> Registered(lexems, TokensFrom(s, i))
  {
    if i <= Step(lexems, s).at {
      i2 := TurnFirst(lexems, s, i);
    } else {
      i2 := TurnLeftOf(lexems, s, i);
    }
  }

  /** The case of `TurnRegistered` whose site is at or after `i`: it consumes the
      first token from `i` on, a registered name. */
  lemma TurnFirst(lexems: map<string, Lexem>, s: string, i: nat) returns (i2: nat)
    requires i <= |s| && Step(lexems, s).Rewrote? && i <= Step(lexems, s).at
    ensures i2 <= |Step(lexems, s).next|
    ensures Registered(lexems, TokensFrom(Step(lexems, s).next, i2)) ==> Registered(lexems, TokensFrom(s, i))
  {
    var st := Step(lexems, s);
    RewroteFirstToken(lexems, s, i);
    i2 := st.at + st.width;
    if Registered(lexems, TokensFrom(st.next, i2)) {
      RegisteredCons(lexems, TokensFrom(s, i));
    }
  }

  /** `insert` on any registry, with any fuel: when it returns true, every
      reference token of the spec names a registered pattern. */
  lemma InsertTrueAllRegistered(lx: Lexer, name: string, spec: string, fuel: nat)
    ensures var r := Insert(lx, name, spec, fuel);
      var ts := TokensFrom(spec, 0);
      r.Returned? && r.ok ==> forall k :: 0 <= k < |ts| ==> ts[k] in lx.lexems
  {
    ExpandedAllRegistered(lx.lexems, spec, [], fuel, 0);
  }

  /** One substitution of a bracketed text keeps a bracketed string bracketed. */
  lemma StepKeepsBracketed(lexems: map<string, Lexem>, s: string)
    requires AllBracketed(lexems) && Bracketed(s)
    ensures Step(lexems, s).Rewrote? ==> Bracketed(Step(lexems, s).next)
  {
    if Step(lexems, s).Rewrote? {
      var ref := FindRef(s).value;
      var t := lexems[s[ref.pos..ref.pos + ref.len]].regex;
      ReplaceKeepsBracketed(s, ref.pos, ref.len, t);
    }
  }

  /** Replacing a token inside a bracketed string by a bracketed text keeps it
      bracketed: the token cannot touch either end. */
  lemma ReplaceKeepsBracketed(s: string, at: nat, n: nat, t: string)
    requires TokenAt(s, at, n) && Bracketed(s) && Bracketed(t)
    ensures Bracketed(s[..at] + t + s[at + n..])
  {
    if at + n == |s| {
      TokenChars(s, at, n, |s| - 1);
    }
    TokenChars(s, at, n, at);
    var next := s[..at] + t + s[at + n..];
    assert next[0] == s[0];
    assert next[|next| - 1] == s[|s| - 1];
  }

  /** Expanding a bracketed spec over such a registry yields a bracketed regex. */
  lemma {:induction false} ExpandKeepsBracketed(lexems: map<string, Lexem>, s: string, acc: seq<Anchor>, fuel: nat)
    requires AllBracketed(lexems) && Bracketed(s)
    requires Expand(lexems, s, acc, fuel).Expanded?
    ensures Bracketed(Expand(lexems, s, acc, fuel).regex)
    decreases fuel
  {
    var st := Step(lexems, s);
    if st.Rewrote? {
      StepKeepsBracketed(lexems, s);
      var acc', fuel' := acc + [st.anchor], fuel - 1;
      ExpandTurn(lexems, s, acc, fuel);
      assert Expand(lexems, s, acc, fuel) == Expand(lexems, st.next, acc', fuel');
      ExpandKeepsBracketed(lexems, st.next, acc', fuel');
    } else {
      ExpandStops(lexems, s, acc, fuel);
    }
  }

  /** Looking up an absent name stores an empty regex, which is not bracketed:
      after it, the facts proved here for delimited registries no longer apply. */
  lemma LookupAbsentUnbracketed(lx: Lexer, name: string)
    ensures name !in lx.lexems ==> !AllBracketed(Lookup(lx, name).1.lexems)
    ensures name in lx.lexems ==> (AllBracketed(Lookup(lx, name).1.lexems) <==> AllBracketed(lx.lexems))
  {
  }

  /** Registering a bracketed spec keeps the registry delimited, so the calling
      convention of wrapping every pattern in one group is self-sustaining. It
      does not survive an `operator[]` lookup of an absent name
      (`LookupAbsentUnbracketed`). */
  lemma InsertKeepsDelimited(lx: Lexer, name: string, spec: string, fuel: nat)
    requires Delimited(lx.lexems) && Bracketed(spec)
    requires Insert(lx, name, spec, fuel).Returned?
    ensures Delimited(Insert(lx, name, spec, fuel).lexer.lexems)
  {
    var r := Expand(lx.lexems, spec, [], fuel);
    if r.Expanded? {
      ExpandKeepsBracketed(lx.lexems, spec, [], fuel);
    }
  }
}

=== FILE: wrappers.dfy ===
/** The optional value used where the source either finds something or does not. */
module Wrappers {

  datatype Option<+T> = None | Some(value: T)
}
